=== FILE: README.md ===
# inzetbooster core in Dafny

inzetbooster drives the Inzetrooster volunteer-roster web site, which has no
public API. It logs in through the HTML login form, scrapes CSRF tokens and
the export form's group list, posts a CSV export request, turns the CSV rows
into shifts, reads people from a Manegeplan spreadsheet export, and keeps an
audit log of the mails it sent so that no mail goes out twice.

This project models that logic as pure functions over immutable datatypes
and proves what it promises:

- **Token scraping** (`Inzetrooster`, `Html`):
  - A page is a tree of tags. BeautifulSoup's `find` is the first match in
    document order.
  - `get_csrf` prefers a `csrf-token` meta tag to a hidden
    `authenticity_token` input, and fails when the page has neither.
- **Client** (`Inzetrooster`):
  - The logged-in flag is set from the login reply.
  - The export request is built from today, the 52-week window, the seven
    weekday codes and the page's group options.
  - The export reply is accepted only with status 200 and content type
    `text/csv`.
- **Shifts** (`Shifts`, `Calendar`, `Decimal`): `Shift.from_record` and
  `parse_csv`.
  - Python's `int()` is modelled as its own function.
  - `strptime` with `%d-%m-%Y` and `%H:%M` follows CPython's `_strptime`
    field patterns, including its "unconverted data remains" and
    out-of-range errors.
  - `date + timedelta(weeks=52)` is checked against the proleptic
    Gregorian ordinal.
- **People** (`Users`): `Person.is_valid` and `read_manegeplan_export`:
  - header trimming;
  - blank-row skipping;
  - the label/cell dictionary, where the last repeated label wins and
    pairing stops at the shorter sequence;
  - defaulting of empty cells.
- **Audit log** (`Audit`): `log_mail` appends a row. `was_mail_send` asks
  whether any row has the given content id and address.

**Python exceptions** become values of `Wrappers.Exception` inside a
`Result`. The three kinds of failure are modelled differently:

- An `assert` that checks the caller's own use of the code becomes a
  `requires`:
  - exactly one of `html` and `soup` must be given to `get_csrf`;
  - `export_shifts` needs a logged-in client.
- An `assert` on a server reply becomes `Err(AssertionError(...))`.
- A raised exception becomes the matching `Err`.

**Abstracted inputs**:

- I/O is abstracted. An HTTP reply is a `Response` value.
- The site's answer to a POST is a `Server` function parameter.
- The HTML parser is a `Parser` function parameter.
- Today's date and the time of a `log_mail` call are parameters.
- The spreadsheet is given as its rows of cells.

## Model

| member | source | states |
|---|---|---|
| Html.Find | src/inzetbooster/inzetrooster.py:87-93 | `find` yields an element exactly when some element of the page has the tag name and every filtered attribute value, and what it yields is the first such element of the page in document order |
| Html.FirstMatchIsFound | src/inzetbooster/inzetrooster.py:87-93 | whichever element is the first match in document order is the one `find` returns |
| Html.FindAll | src/inzetbooster/inzetrooster.py:65-67 | `find_all("option")` yields only option tags of the select's descendants, and every option among those descendants is among them |
| Html.TagsNamedAppend | src/inzetbooster/inzetrooster.py:63-68 | selecting tags by name keeps document order: the selection of a concatenation is the concatenation of the selections |
| Html.ElementsAppend | src/inzetbooster/inzetrooster.py:65-67 | the document order of consecutive sibling groups is the order of the first group followed by that of the second |
| Html.FindAllSplit | src/inzetbooster/inzetrooster.py:65-67 | `find_all` over consecutive children is the search over the first ones followed by the search over the rest, so the result keeps document order and lists each match once |
| Html.FindAllChild | src/inzetbooster/inzetrooster.py:65-67 | under a single child, the child itself (when it has the name) comes before the matches among its own descendants |
| Html.FindAllLeaf | src/inzetbooster/inzetrooster.py:65-67 | an element without children yields no matches |
| Inzetrooster.PageToken | src/inzetbooster/inzetrooster.py:87-95 | a token found on a page is the `content` of a `csrf-token` meta tag or the `value` of a hidden `authenticity_token` input of that page |
| Inzetrooster.GetCsrf | src/inzetbooster/inzetrooster.py:82-86 | exactly one of the raw page and the parsed page must be given; a raw page is parsed, and both then follow the same token rule |
| Inzetrooster.MetaTokenPreferred | src/inzetbooster/inzetrooster.py:87-89 | the first `csrf-token` meta tag decides the token (its `content`, or KeyError without one), whatever hidden inputs the page also has |
| Inzetrooster.HiddenInputToken | src/inzetbooster/inzetrooster.py:91-93 | without such a meta tag, the first hidden `authenticity_token` input gives the token from its `value` |
| Inzetrooster.NoTokenFails | src/inzetbooster/inzetrooster.py:95 | a page with neither tag fails with ValueError "no CSRF token found" |
| Inzetrooster.HiddenInputExample | tests/test_inzetrooster.py:8-11 | the page whose only token is a hidden input with value SECRET yields SECRET |
| Inzetrooster.MetaExample | tests/test_inzetrooster.py:12-20 | the page with a meta token VERY SECRET before a hidden input SECRET yields VERY SECRET |
| Inzetrooster.NoTokenExample | tests/test_inzetrooster.py:27-29 | a page without a token fails with "no CSRF token found" |
| Inzetrooster.NewClient | src/inzetbooster/inzetrooster.py:21-24 | a new client belongs to the given organisation and is not logged in |
| Inzetrooster.Login | src/inzetbooster/inzetrooster.py:26-44 | the token of the login page is posted with the credentials; the flag is set exactly when the reply does not contain "Geen geldige gebruikersnaam"; a reply with that text fails with "invalid credentials"; a login page without a token fails and leaves the client as it was |
| Inzetrooster.LoginFromNewClient | src/inzetbooster/inzetrooster.py:21-44 | a new client is not logged in, and after login the flag holds exactly when login succeeded |
| Inzetrooster.WeekdayCodes | src/inzetbooster/inzetrooster.py:62 | `days[]` is "1" to "7" in order |
| Inzetrooster.OptionValues | src/inzetbooster/inzetrooster.py:63-68 | one value per option, in order, each the option's `value` attribute; an option without one raises KeyError |
| Inzetrooster.GroupIds | src/inzetbooster/inzetrooster.py:63-68 | a page without the `group_ids[]` select raises AttributeError; otherwise the group ids are the option values under the first such select in document order |
| Inzetrooster.GroupIdsExample | src/inzetbooster/inzetrooster.py:63-68 | a page whose select holds options 12079 and 10736 gives exactly those two ids in page order |
| Inzetrooster.ExportForm | src/inzetbooster/inzetrooster.py:55-70 | the export form exists exactly when the 52-week end date is representable and the page has a token and readable group options; `from_date` is today and `to_date` is 364 days later, both as `YYYY-MM-DD`; `days[]`, `group_ids[]`, the token and the empty `button` are as the page and the week give them, and the form has these six fields and no others |
| Inzetrooster.AcceptExport | src/inzetbooster/inzetrooster.py:77-79 | the export reply is accepted exactly when its status is 200 and its content type is exactly `text/csv`, and then its body is the result; a missing content type raises KeyError |
| Inzetrooster.ExportShifts | src/inzetbooster/inzetrooster.py:46-79 | a logged-in client is required; an export page other than 200 fails; a form that cannot be built fails with its error; otherwise the result is what accepting the reply to that form gives, so an accepted reply's CSV text is returned |
| Calendar.NextDay | src/inzetbooster/inzetrooster.py:57 | the next calendar day is one ordinal further, and only 9999-12-31 has none |
| Calendar.AddDays | src/inzetbooster/inzetrooster.py:56-57 | adding n days gives the valid date n ordinals later, and overflows exactly when that passes 9999-12-31 |
| Calendar.AddWeeksKeepsWeekday | src/inzetbooster/inzetrooster.py:57 | adding whole weeks keeps the weekday |
| Calendar.OrdinalBound | src/inzetbooster/inzetrooster.py:57 | every valid date's ordinal lies between 1 and that of 9999-12-31 |
| Calendar.FormatIso | src/inzetbooster/inzetrooster.py:60-61 | `%Y-%m-%d` is ten characters whose digit fields are worth the year, month and day |
| Calendar.FormatIsoInjective | src/inzetbooster/inzetrooster.py:60-61 | different dates give different `%Y-%m-%d` texts |
| Calendar.ParseDmy | src/inzetbooster/shifts.py:47 | a parsed `%d-%m-%Y` date is a valid calendar date (its reading is pinned by the lemmas below) |
| Calendar.ParseDmyRoundTrip | src/inzetbooster/shifts.py:47 | every date written as `dd-mm-yyyy` parses back to itself |
| Calendar.ParseDmyTrailing | src/inzetbooster/shifts.py:47 | text after a written date is reported as unconverted data |
| Calendar.DayField | src/inzetbooster/shifts.py:47 | `%d` reads a day text exactly: one or two digits worth 1 to 31, or a space and a non-zero digit, each read as the day it spells, and nothing else |
| Calendar.MonthField | src/inzetbooster/shifts.py:47 | `%m` reads exactly the one- or two-digit numerals worth 1 to 12, as the month they spell |
| Calendar.DayFieldReads | src/inzetbooster/shifts.py:47 | every day text worth 1 to 31 is read as that day |
| Calendar.ParseDmyReads | src/inzetbooster/shifts.py:47 | an accepted text is a day text, `-`, a one- or two-digit month, `-` and four year digits, worth the day, month and year of the result |
| Calendar.ParseDmyFields | src/inzetbooster/shifts.py:47 | any such text is accepted as the date it spells, except that year 0 and a day past the end of its month are rejected with `datetime.date`'s messages |
| Calendar.ParseDmySplit | src/inzetbooster/shifts.py:47 | text with dash-free day and month fields is cut at its first two dashes |
| Calendar.DmyFieldsRead | src/inzetbooster/shifts.py:47 | read fields with a four-digit year give that date, or the year-0 or day-out-of-range error |
| Calendar.NoThirtyFirstOfFebruary | src/inzetbooster/shifts.py:47 | `31-02-2024` is rejected: the day is out of range for the month |
| Calendar.OneDigitDay | src/inzetbooster/shifts.py:47 | `1-01-2024` is 1 January 2024 |
| Calendar.ParseHm | src/inzetbooster/shifts.py:48-49 | a parsed `%H:%M` time has hour 0 to 23 and minute 0 to 59 (its reading is pinned by the lemmas below) |
| Calendar.ParseHmRoundTrip | src/inzetbooster/shifts.py:48-49 | every time written as `HH:MM` parses back to itself |
| Calendar.ParseHmTrailing | src/inzetbooster/shifts.py:48-49 | text after a written time is reported as unconverted data |
| Calendar.HourField | src/inzetbooster/shifts.py:48-49 | `%H` reads exactly the one- or two-digit numerals worth 0 to 23, as the hour they spell |
| Calendar.MinutePrefix | src/inzetbooster/shifts.py:48-49 | `%M` takes a one- or two-digit numeral worth 0 to 59 from the front of the text, and takes the whole of any such numeral |
| Calendar.ParseHmReads | src/inzetbooster/shifts.py:48-49 | an accepted text is a one- or two-digit hour, `:` and a one- or two-digit minute, worth the hour and minute of the result |
| Calendar.ParseHmFields | src/inzetbooster/shifts.py:48-49 | any hour numeral up to 23, `:` and minute numeral up to 59 is accepted as the time it spells |
| Calendar.ParseHmHourOutOfRange | src/inzetbooster/shifts.py:48-49 | an hour numeral past 23 does not match `%H:%M` |
| Calendar.NoHourTwentyFour | src/inzetbooster/shifts.py:48-49 | `24:00` does not match `%H:%M` |
| Calendar.OneDigitHour | src/inzetbooster/shifts.py:48-49 | `9:30` is half past nine |
| Decimal.IntRoundTrip | src/inzetbooster/shifts.py:44-45 | `int(str(n)) == n` for every integer |
| Decimal.ParseInt | src/inzetbooster/shifts.py:44-45 | `int()` of text that is not an integer literal raises ValueError quoting the text; an accepted text holds a digit |
| Decimal.ParseIntReads | src/inzetbooster/shifts.py:44-45 | an accepted text is whitespace, an optional sign, digit groups joined by single underscores and whitespace, and its value is the signed value of the digits |
| Decimal.ParseIntAccepts | src/inzetbooster/shifts.py:44-45 | every such literal is accepted with that signed value |
| Decimal.PaddedExample | src/inzetbooster/shifts.py:44-45 | `int(" 12")` is 12 |
| Decimal.PlusExample | src/inzetbooster/shifts.py:44-45 | `int("+5")` is 5 |
| Decimal.UnderscoreExample | src/inzetbooster/shifts.py:44-45 | `int("1_000")` is 1000 |
| Decimal.InnerSignExample | src/inzetbooster/shifts.py:44-45 | `int("1-2")` raises ValueError |
| Decimal.ParseIntRejectsForeign | src/inzetbooster/shifts.py:44-45 | text holding a character that is not a digit, whitespace `int()` skips, a sign or an underscore raises ValueError "invalid literal for int() with base 10" |
| Decimal.Quoted | src/inzetbooster/shifts.py:44-45 | the text in `int()`'s error message is quoted whole up to 198 characters; longer text is cut to 200 characters, dropping the closing quote |
| Decimal.SeparatorExample | src/inzetbooster/shifts.py:44-45 | `int("\x1c5")` raises ValueError: the information separators are not whitespace to `int()` |
| Decimal.NoBreakSpaceExample | src/inzetbooster/shifts.py:44-45 | `int("\xa05")` is 5: a no-break space is skipped |
| Shifts.Column | src/inzetbooster/shifts.py:44-53 | a missing column raises KeyError naming it |
| Shifts.Optional | src/inzetbooster/shifts.py:50-52 | an empty user column is absent, any other is kept unchanged |
| Shifts.GroupColumns | src/inzetbooster/shifts.py:44-46 | shift and group ids are the integers of their columns, and the group name is copied |
| Shifts.SlotColumns | src/inzetbooster/shifts.py:47-49 | the date and the two times are what their columns parse to |
| Shifts.UserColumns | src/inzetbooster/shifts.py:50-53 | the user columns empty-means-absent, and the comments copied |
| Shifts.FromRecord | src/inzetbooster/shifts.py:41-54 | every shift read has a calendar date, times of day and no present-but-empty user field |
| Shifts.FromRecordFields | src/inzetbooster/shifts.py:42-54 | a row gives a shift exactly when every consumed column is present and parses; each field is then read from its column; a missing `Dienst_id` is reported first |
| Shifts.FromRecordIgnoresOtherColumns | src/inzetbooster/shifts.py:42-54 | columns that are not read (`Dag`, `Tijdsduur`, `Telefoon`, ...) do not change the result |
| Shifts.FromRecordRoundTrip | src/inzetbooster/shifts.py:42-54 | every well-formed shift is read back from the row the export writes for it |
| Shifts.FromRecordOfRendered | src/inzetbooster/shifts.py:42-54 | any row that agrees with a shift's written row on the consumed columns reads back as that shift |
| Shifts.SameConsumedColumns | src/inzetbooster/shifts.py:42-54 | two rows that agree on the consumed columns read alike, whatever their other columns hold |
| Shifts.CoveredShiftExample | tests/test_shifts.py:45-79 | the covered test row reads as the shift with user PRS2921 on 2024-01-13 from 15:30 to 18:30 |
| Shifts.UncoveredShiftExample | tests/test_shifts.py:10-44 | the uncovered test row reads as the shift with no user on 2024-01-13 from 16:00 to 18:00 |
| Shifts.ParseCsv | src/inzetbooster/shifts.py:57-59 | one shift per row in row order when every row reads; otherwise the error of the first row that does not |
| Users.IsValidFields | src/inzetbooster/users.py:14-15 | a person is valid exactly when first name, surname and email are all non-empty; id and name affix play no part |
| Users.TextOr | src/inzetbooster/users.py:35-38 | `cell or ""`: the empty text exactly for an absent or empty cell, otherwise the cell's text |
| Users.TrimHeader | src/inzetbooster/users.py:24-26 | the trimmed header is a non-empty prefix of the header whose last label is non-blank and past which every label is blank; a header of blank labels only raises IndexError |
| Users.Zip | src/inzetbooster/users.py:31 | every label paired with a cell is a key, and each key maps to the cell of the last position carrying that label, pairing stopping at the shorter sequence |
| Users.Get | src/inzetbooster/users.py:34-38 | a label that was not paired raises KeyError naming it |
| Users.PersonOf | src/inzetbooster/users.py:33-39 | a person is built exactly when every required label is a key; otherwise KeyError names a required label that is missing |
| Users.RowToPerson | src/inzetbooster/users.py:31-39 | a row that gives no person fails with KeyError naming a required label the header does not pair with a cell |
| Users.RowToPersonFields | src/inzetbooster/users.py:31-39 | a row gives a person exactly when every required label is paired; the id is its cell as it is, and the four text fields are their cells with an empty cell read as "" |
| Users.RowToPersonIgnoresExtraCells | src/inzetbooster/users.py:31 | cells beyond the header do not change the person |
| Users.NonBlankRows | src/inzetbooster/users.py:28-30 | the rows kept are exactly the rows with some present cell |
| Users.NonBlankRowsAppend | src/inzetbooster/users.py:28-30 | skipping blank rows distributes over concatenation, so kept rows stay in sheet order and a repeated row is kept each time |
| Users.NonBlankRowsSingleton | src/inzetbooster/users.py:28-30 | a single row is kept exactly when it is not blank |
| Users.PeopleOfRows | src/inzetbooster/users.py:28-39 | the read succeeds exactly when every non-blank row gives a person, and then gives one person per non-blank row in sheet order; a failure carries the error of a non-blank row |
| Users.PeopleOfRowsFirstError | src/inzetbooster/users.py:28-39 | a failed read carries the error of the first non-blank row that gives no person |
| Users.ReadManegeplanExport | src/inzetbooster/users.py:18-39 | a workbook without an active sheet raises ValueError; an empty sheet ends with RuntimeError; a header of blank labels raises IndexError; otherwise the result is exactly that of reading the data rows under the trimmed header |
| Strings.Contains | src/inzetbooster/inzetrooster.py:40 | the substring test holds exactly when the marker occurs somewhere in the text |
| Strings.StripPadded | src/inzetbooster/shifts.py:44-45 | the whitespace `int()` skips (ASCII tab to carriage return and space, U+0085, U+00A0, but not U+001C to U+001F) around a core that neither starts nor ends with it is stripped off, leaving the core |
| Audit.NewAuditLog | src/inzetbooster/auditlog.py:8-18 | a new log on an empty database has no rows |
| Audit.LogMail | src/inzetbooster/auditlog.py:20-24 | `log_mail` adds exactly one row, after the existing rows, which stay unchanged |
| Audit.SelectTs | src/inzetbooster/auditlog.py:26-30 | the query answers nothing exactly when no row has that content id and address; every timestamp it gives comes from such a row, and every such row's timestamp is given |
| Audit.WasMailSend | src/inzetbooster/auditlog.py:26-31 | a mail counts as sent exactly when some row has its content id and address |
| Audit.FreshLogSentNothing | tests/test_auditlog.py:4-6 | a freshly created log reports no mail as sent |
| Audit.LoggedMailWasSent | tests/test_auditlog.py:7-8 | after `log_mail(c, e, m)`, `was_mail_send(c, e)` holds |
| Audit.LogMailFrame | src/inzetbooster/auditlog.py:20-31 | logging never makes a true answer false, and leaves the answer for every other pair unchanged |
| Audit.LogMailTwice | src/inzetbooster/auditlog.py:20-24 | logging the same pair twice adds two rows, both found by the query |
| Audit.SelectTsAppend | src/inzetbooster/auditlog.py:20-30 | an appended row adds its timestamp to the end of the query's answer exactly when it is about the queried pair |
| Audit.AnswerDependsOnPairsOnly | src/inzetbooster/auditlog.py:26-31 | the time of logging and the message id play no part in the answer |
| Audit.ReplaySent | src/inzetbooster/auditlog.py:20-31 | from a fresh log, a mail counts as sent exactly when some `log_mail` call named its content id and address |

## Left out

- HTTP is not modelled. Requests, cookies, redirects and the GET of the
  login and export pages are left out. A fetched page is a `Response` value
  and a POST's reply is a `Server` function.
- HTML parsing is not modelled. BeautifulSoup with html5lib is a `Parser`
  function from text to a tag tree. Text nodes, html5lib's tree repair and
  multi-valued attributes such as `class` are left out.
- `datetime.date.today()` and `time.time()` are parameters. The timestamp
  is a `real`; floating-point rounding is left out.
- CSV tokenising is not modelled. `csv.DictReader`'s quoting, its `None`
  for missing cells of a short row and its skipping of empty lines are left
  out: a row is a map from column name to text.
- Loading the workbook with openpyxl is not modelled: the active sheet is
  given as rows of cells.
- Cells are absent or text. Numbers, dates and other cell types openpyxl
  can return are left out.
- `read_manegeplan_export` is a generator. The model returns the list its
  caller builds, so people yielded before a failing row are not modelled.
- The audit log is a sequence of rows. The sqlite connection, the table
  creation statement and durability across runs are left out.
  - `log_mail` issues no commit. Whether its rows outlive the connection
    depends on callers that are not part of this model.
  - The query has no `ORDER BY`. The model returns rows in insertion order,
    but only whether a first row exists is used.
- Audit.LogMail: rows are keyed by (content id, email); there is no shift
  id column.
- Decimal.ParseInt: only ASCII digits are modelled. Python's `int()` also
  accepts other Unicode decimal digits, and that is left out.
- Decimal.ParseInt: only the whitespace `int()` skips below U+0100 is
  modelled: tab to carriage return, space, U+0085 and U+00A0. Whitespace
  above U+00FF, which `int()` also skips, is left out.
- Decimal.ParseInt: the error message quotes the text with plain single
  quotes, cut to 200 characters as `%.200R` cuts it. Python uses `repr`,
  which differs for text containing quotes or escapes, so the cut can fall
  elsewhere in such text.
- Calendar.ParseDmy: `%d`, `%m` and `%Y` are matched on ASCII digits only.
  Python's regular expression `\d` also matches other Unicode digits, and
  that is left out. Case-insensitive matching is irrelevant for these
  formats. The mismatch message quotes the text and the format with plain
  single quotes; `_strptime` uses `%r`, which differs for text holding
  quotes or escapes.
- Calendar.ParseHm: the same plain quoting of the mismatch message as for
  `ParseDmy`, where Python uses `%r`.
- Decimal.IntRoundTrip: holds for integers of any length. Since Python
  3.10.7 and 3.11, `str()` and `int()` raise ValueError "Exceeds the limit
  (4300 digits) for integer string conversion" for longer numbers; that
  limit is not modelled, and shift and group ids stay far below it.
- Decimal.ParseInt: accepts text of any length, without the 4300-digit
  limit of recent Python versions.
- Calendar.FormatIso: years below 1000 are always padded to four digits.
  Whether `strftime("%Y")` pads them depends on the platform's C library.
- Structured logging calls (`logger.debug`, `logger.info`,
  `logger.error`) have no effect on results and are left out.
- The `Shift` column tuple at the top of `shifts.py` is an unused
  expression and is not modelled.
- main.py, the mailer and the command-line interface are not part of this
  model.

=== FILE: auditlog.dfy ===
/** The mail audit log: an append-only table of the mails sent, each with
    the time it was logged, the content (template) it carried, the
    recipient's address and the message id the mail transport assigned.
    The table is modelled as the sequence of its rows in insertion order;
    the database connection and the clock are not modelled, and the time
    of a logging call is a parameter. */
module Audit {

  /** One row of `mail_log`; the surrogate key is the row's position. */
  datatype Entry = Entry(ts: real, contentId: string, email: string, msgId: string)

  /** The contents of the `mail_log` table. */
  datatype AuditLog = AuditLog(entries: seq<Entry>)

  /** Row `e` is about mail of content `c` to address `email`. */
  predicate IsAbout(e: Entry, c: string, email: string)
  {
    e.contentId == c && e.email == email
  }

  /** Some row of `entries` is about `c` and `email`. */
  predicate Logged(entries: seq<Entry>, c: string, email: string)
  {
    exists i :: 0 <= i < |entries| && IsAbout(entries[i], c, email)
  }

  /** A log freshly created on an empty database: the table exists and
      holds no rows. */
  function NewAuditLog(): (log: AuditLog)
    ensures |log.entries| == 0
  {
    AuditLog([])
  }

  /** `log_mail`: one more row, after all the existing ones, which stay as
      they were. Nothing checks whether the pair is already present. */
  function LogMail(log: AuditLog, now: real, c: string, email: string, msgId: string): (r: AuditLog)
    ensures |r.entries| == |log.entries| + 1
    ensures r.entries[..|log.entries|] == log.entries
    ensures r.entries[|log.entries|] == Entry(now, c, email, msgId)
  {
    AuditLog(log.entries + [Entry(now, c, email, msgId)])
  }

  /** `SELECT ts FROM mail_log WHERE content_id=? AND email=?`: the
      timestamps of the rows about `c` and `email`, in row order. */
  function SelectTs(entries: seq<Entry>, c: string, email: string): (ts: seq<real>)
    ensures |ts| <= |entries|
    ensures |ts| == 0 <==> !Logged(entries, c, email)
    ensures forall t :: t in ts ==> exists i :: 0 <= i < |entries| && IsAbout(entries[i], c, email) && entries[i].ts == t
    ensures forall i :: 0 <= i < |entries| && IsAbout(entries[i], c, email) ==> entries[i].ts in ts
  {
    if |entries| == 0 then []
    else
      var rest := SelectTs(entries[1..], c, email);
      assert forall i :: 0 < i < |entries| ==> entries[i] == entries[1..][i - 1];
      if IsAbout(entries[0], c, email) then [entries[0].ts] + rest else rest
  }

  /** `was_mail_send`: the query's first row exists. */
  function WasMailSend(log: AuditLog, c: string, email: string): (b: bool)
    ensures b <==> Logged(log.entries, c, email)
  {
    |SelectTs(log.entries, c, email)| > 0
  }

  /** A freshly created log has sent nothing. */
  lemma FreshLogSentNothing(c: string, email: string)
    ensures !WasMailSend(NewAuditLog(), c, email)
  {
  }

  /** Once logged, a mail counts as sent. */
  lemma LoggedMailWasSent(log: AuditLog, now: real, c: string, email: string, msgId: string)
    ensures WasMailSend(LogMail(log, now, c, email, msgId), c, email)
  {
    var r := LogMail(log, now, c, email, msgId);
    assert IsAbout(r.entries[|log.entries|], c, email);
  }

  /** Logging changes the answer for no pair but its own, and never turns a
      true answer false. */
  lemma LogMailFrame(log: AuditLog, now: real, c: string, email: string, msgId: string, c': string, email': string)
    ensures WasMailSend(log, c', email') ==> WasMailSend(LogMail(log, now, c, email, msgId), c', email')
    ensures (c', email') != (c, email) ==>
      WasMailSend(LogMail(log, now, c, email, msgId), c', email') == WasMailSend(log, c', email')
  {
    var r := LogMail(log, now, c, email, msgId);
    if WasMailSend(log, c', email') {
      var i :| 0 <= i < |log.entries| && IsAbout(log.entries[i], c', email');
      assert r.entries[i] == log.entries[i];
    }
    if WasMailSend(r, c', email') && (c', email') != (c, email) {
      var i :| 0 <= i < |r.entries| && IsAbout(r.entries[i], c', email');
      assert i < |log.entries| && r.entries[i] == log.entries[i];
    }
  }

  /** Logging the same pair twice keeps both rows. */
  lemma LogMailTwice(log: AuditLog, now: real, later: real, c: string, email: string, m1: string, m2: string)
    ensures var r := LogMail(LogMail(log, now, c, email, m1), later, c, email, m2);
      && |r.entries| == |log.entries| + 2
      && |SelectTs(r.entries, c, email)| == |SelectTs(log.entries, c, email)| + 2
      && WasMailSend(r, c, email)
  {
    var once := LogMail(log, now, c, email, m1);
    SelectTsAppend(log.entries, Entry(now, c, email, m1), c, email);
    SelectTsAppend(once.entries, Entry(later, c, email, m2), c, email);
    LoggedMailWasSent(once, later, c, email, m2);
  }

  /** A row appended to the table adds its timestamp to the end of the
      query's answer exactly when the row is about the queried pair. */
  lemma {:induction false} SelectTsAppend(entries: seq<Entry>, e: Entry, c: string, email: string)
    ensures SelectTs(entries + [e], c, email) ==
      SelectTs(entries, c, email) + (if IsAbout(e, c, email) then [e.ts] else [])
  {
    if |entries| > 0 {
      assert (entries + [e])[1..] == entries[1..] + [e];
      SelectTsAppend(entries[1..], e, c, email);
    }
  }

  /** Neither the time of logging nor the message id plays a part in the
      answer: two tables that agree on the pairs of their rows agree on
      every query. */
  lemma AnswerDependsOnPairsOnly(a: AuditLog, b: AuditLog, c: string, email: string)
    requires |a.entries| == |b.entries|
    requires forall i :: 0 <= i < |a.entries| ==> SamePair(a.entries[i], b.entries[i])
    ensures WasMailSend(a, c, email) == WasMailSend(b, c, email)
  {
    if Logged(a.entries, c, email) {
      var i :| 0 <= i < |a.entries| && IsAbout(a.entries[i], c, email);
      assert SamePair(a.entries[i], b.entries[i]);
      assert IsAbout(b.entries[i], c, email);
    }
    if Logged(b.entries, c, email) {
      var i :| 0 <= i < |b.entries| && IsAbout(b.entries[i], c, email);
      assert SamePair(a.entries[i], b.entries[i]);
      assert IsAbout(a.entries[i], c, email);
    }
  }

  /** Two rows about the same content and address. */
  predicate SamePair(x: Entry, y: Entry)
  {
    x.contentId == y.contentId && x.email == y.email
  }

  /** One `log_mail` call: its time and arguments. */
  datatype Call = Call(now: real, contentId: string, email: string, msgId: string)

  /** The log after the calls, in order. */
  function Replay(log: AuditLog, calls: seq<Call>): (r: AuditLog)
    ensures |r.entries| == |log.entries| + |calls|
  {
    if |calls| == 0 then log
    else
      var last := calls[|calls| - 1];
      LogMail(Replay(log, calls[..|calls| - 1]), last.now, last.contentId, last.email, last.msgId)
  }

  /** Starting from a fresh log, a mail counts as sent exactly when some
      `log_mail` call named its content and address. */
  lemma {:induction false} ReplaySent(calls: seq<Call>, c: string, email: string)
    ensures WasMailSend(Replay(NewAuditLog(), calls), c, email) <==>
      exists j :: 0 <= j < |calls| && calls[j].contentId == c && calls[j].email == email
  {
    if |calls| == 0 {
      FreshLogSentNothing(c, email);
    } else {
      var init := calls[..|calls| - 1];
      var last := calls[|calls| - 1];
      var before := Replay(NewAuditLog(), init);
      ReplaySent(init, c, email);
      LogMailFrame(before, last.now, last.contentId, last.email, last.msgId, c, email);
      if last.contentId == c && last.email == email {
        LoggedMailWasSent(before, last.now, c, email, last.msgId);
      }
      assert forall j :: 0 <= j < |init| ==> init[j] == calls[j];
    }
  }
}

=== FILE: calendar.dfy ===
/** Calendar dates and times of day as Python's `datetime` module has them:
    proleptic Gregorian dates of years 1 to 9999, day ordinals, adding days,
    and the `strftime`/`strptime` formats the roster client uses. */
module Calendar {

  import opened Wrappers
  import opened Decimal
  import Strings

  datatype Date = Date(year: int, month: int, day: int)

  datatype Time = Time(hour: int, minute: int)

  const MinYear := 1
  const MaxYear := 9999

  /** The last date Python's `datetime.date` can represent. */
  const MaxDate := Date(MaxYear, 12, 31)

  predicate IsLeapYear(y: int)
  {
    y % 4 == 0 && (y % 100 != 0 || y % 400 == 0)
  }

  function DaysInMonth(y: int, m: int): int
    requires 1 <= m <= 12
  {
    if m == 2 then (if IsLeapYear(y) then 29 else 28)
    else if m == 4 || m == 6 || m == 9 || m == 11 then 30
    else 31
  }

  function DaysInYear(y: int): int
  {
    if IsLeapYear(y) then 366 else 365
  }

  predicate ValidDate(d: Date)
  {
    && MinYear <= d.year <= MaxYear
    && 1 <= d.month <= 12
    && 1 <= d.day <= DaysInMonth(d.year, d.month)
  }

  predicate ValidTime(t: Time)
  {
    0 <= t.hour <= 23 && 0 <= t.minute <= 59
  }

  /** The number of days in the years before year `y`. */
  function DaysBeforeYear(y: int): int
    requires y >= 1
  {
    var p := y - 1;
    p * 365 + p / 4 - p / 100 + p / 400
  }

  /** The number of days in the months of year `y` before month `m`. */
  function DaysBeforeMonth(y: int, m: int): int
    requires 1 <= m <= 12
  {
    (if m > 2 && IsLeapYear(y) then 1 else 0)
    + [0, 31, 59, 90, 120, 151, 181, 212, 243, 273, 304, 334][m - 1]
  }

  /** Python's `date.toordinal()`: 1 January of year 1 is day 1. */
  function Ordinal(d: Date): int
    requires ValidDate(d)
  {
    DaysBeforeYear(d.year) + DaysBeforeMonth(d.year, d.month) + d.day
  }

  lemma YearStep(y: int)
    requires y >= 1
    ensures DaysBeforeYear(y + 1) == DaysBeforeYear(y) + DaysInYear(y)
  {
    assert y / 4 - (y - 1) / 4 == (if y % 4 == 0 then 1 else 0);
    assert y / 100 - (y - 1) / 100 == (if y % 100 == 0 then 1 else 0);
    assert y / 400 - (y - 1) / 400 == (if y % 400 == 0 then 1 else 0);
  }

  lemma {:induction false} DaysBeforeYearMonotone(a: int, b: int)
    requires 1 <= a <= b
    ensures DaysBeforeYear(a) <= DaysBeforeYear(b)
    decreases b - a
  {
    if a < b {
      YearStep(a);
      DaysBeforeYearMonotone(a + 1, b);
    }
  }

  /** No valid date lies after 9999-12-31. */
  lemma OrdinalBound(d: Date)
    requires ValidDate(d)
    ensures 1 <= Ordinal(d) <= Ordinal(MaxDate)
  {
    YearStep(d.year);
    DaysBeforeYearMonotone(d.year + 1, MaxYear + 1);
    YearStep(MaxYear);
  }

  /** The day after `d`; there is none after 9999-12-31. */
  function NextDay(d: Date): (r: Option<Date>)
    requires ValidDate(d)
    ensures r.Some? ==> ValidDate(r.value) && Ordinal(r.value) == Ordinal(d) + 1
    ensures r.None? <==> d == MaxDate
  {
    if d.day < DaysInMonth(d.year, d.month) then
      Some(d.(day := d.day + 1))
    else if d.month < 12 then
      Some(Date(d.year, d.month + 1, 1))
    else if d.year < MaxYear then
      YearStep(d.year);
      Some(Date(d.year + 1, 1, 1))
    else
      None
  }

  /** Python's `d + timedelta(days=n)` for `n >= 0`: the date `n` days later,
      or OverflowError when that would pass 9999-12-31. */
  function AddDays(d: Date, n: nat): (r: Result<Date>)
    requires ValidDate(d)
    ensures r.Ok? ==> ValidDate(r.value) && Ordinal(r.value) == Ordinal(d) + n
    ensures r.Err? <==> Ordinal(d) + n > Ordinal(MaxDate)
    decreases n
  {
    if n == 0 then
      OrdinalBound(d);
      Ok(d)
    else
      match NextDay(d)
      case None => Err(OverflowError("date value out of range"))
      case Some(next) => AddDays(next, n - 1)
  }

  /** Python's `date.weekday()`: 0 is Monday (1 January of year 1 was one). */
  function Weekday(d: Date): (w: int)
    requires ValidDate(d)
    ensures 0 <= w < 7
  {
    (Ordinal(d) + 6) % 7
  }

  lemma {:induction false} ModSevenWeeks(a: int, weeks: nat)
    ensures (a + 7 * weeks) % 7 == a % 7
  {
    if weeks > 0 {
      ModSevenWeeks(a, weeks - 1);
      assert a + 7 * weeks == (a + 7 * (weeks - 1)) + 7;
    }
  }

  /** Adding a whole number of weeks keeps the day of the week. */
  lemma AddWeeksKeepsWeekday(d: Date, weeks: nat)
    requires ValidDate(d)
    requires AddDays(d, 7 * weeks).Ok?
    ensures Weekday(AddDays(d, 7 * weeks).value) == Weekday(d)
  {
    ModSevenWeeks(Ordinal(d) + 6, weeks);
  }

  /** `d.strftime("%Y-%m-%d")`: a ten-character string whose digit fields
      read back as the year, month and day. */
  function FormatIso(d: Date): (s: string)
    requires ValidDate(d)
    ensures |s| == 10 && s[4] == '-' && s[7] == '-'
    ensures AllDigits(s[..4]) && DigitsValue(s[..4]) == d.year
    ensures AllDigits(s[5..7]) && DigitsValue(s[5..7]) == d.month
    ensures AllDigits(s[8..]) && DigitsValue(s[8..]) == d.day
  {
    var s := Pad4(d.year) + "-" + Pad2(d.month) + "-" + Pad2(d.day);
    assert s[..4] == Pad4(d.year);
    assert s[5..7] == Pad2(d.month);
    assert s[8..] == Pad2(d.day);
    s
  }

  /** `FormatIso` tells dates apart. */
  lemma FormatIsoInjective(d: Date, e: Date)
    requires ValidDate(d) && ValidDate(e)
    requires FormatIso(d) == FormatIso(e)
    ensures d == e
  {
  }

  // Field patterns of CPython's `_strptime`. Each field is matched against
  // the whole text between two literal separators of the format.

  predicate IsNonZeroDigit(c: char)
  {
    '1' <= c <= '9'
  }

  /** `f` is one or two decimal digits worth `v`. */
  predicate Numeral(f: string, v: int)
  {
    1 <= |f| <= 2 && AllDigits(f) && DigitsValue(f) == v
  }

  /** `f` is a `%d` day text worth `v`: one or two digits, or a space and
      one digit. */
  predicate DayText(f: string, v: int)
  {
    Numeral(f, v) || (|f| == 2 && f[0] == ' ' && IsDigit(f[1]) && DigitValue(f[1]) == v)
  }

  /** `%d`: `3[01]|[12]\d|0[1-9]|[1-9]| [1-9]`. */
  function DayField(f: string): (r: Option<int>)
    ensures r.Some? ==> 1 <= r.value <= 31 && DayText(f, r.value)
    ensures 1 <= |f| <= 2 && AllDigits(f) && 1 <= DigitsValue(f) <= 31 ==> r == Some(DigitsValue(f))
    ensures |f| == 2 && f[0] == ' ' && IsNonZeroDigit(f[1]) ==> r == Some(DigitValue(f[1]))
  {
    SmallDigits(f);
    if |f| == 2 && f[0] == '3' && (f[1] == '0' || f[1] == '1') then Some(30 + DigitValue(f[1]))
    else if |f| == 2 && (f[0] == '1' || f[0] == '2') && IsDigit(f[1]) then
      Some(10 * DigitValue(f[0]) + DigitValue(f[1]))
    else if |f| == 2 && f[0] == '0' && IsNonZeroDigit(f[1]) then Some(DigitValue(f[1]))
    else if |f| == 1 && IsNonZeroDigit(f[0]) then Some(DigitValue(f[0]))
    else if |f| == 2 && f[0] == ' ' && IsNonZeroDigit(f[1]) then Some(DigitValue(f[1]))
    else None
  }

  /** `%m`: `1[0-2]|0[1-9]|[1-9]`. */
  function MonthField(f: string): (r: Option<int>)
    ensures r.Some? ==> 1 <= r.value <= 12 && Numeral(f, r.value)
    ensures 1 <= |f| <= 2 && AllDigits(f) && 1 <= DigitsValue(f) <= 12 ==> r == Some(DigitsValue(f))
  {
    SmallDigits(f);
    if |f| == 2 && f[0] == '1' && '0' <= f[1] <= '2' then Some(10 + DigitValue(f[1]))
    else if |f| == 2 && f[0] == '0' && IsNonZeroDigit(f[1]) then Some(DigitValue(f[1]))
    else if |f| == 1 && IsNonZeroDigit(f[0]) then Some(DigitValue(f[0]))
    else None
  }

  /** `%H`: `2[0-3]|[0-1]\d|\d`. */
  function HourField(f: string): (r: Option<int>)
    ensures r.Some? ==> 0 <= r.value <= 23 && Numeral(f, r.value)
    ensures 1 <= |f| <= 2 && AllDigits(f) && DigitsValue(f) <= 23 ==> r == Some(DigitsValue(f))
  {
    SmallDigits(f);
    if |f| == 2 && f[0] == '2' && '0' <= f[1] <= '3' then Some(20 + DigitValue(f[1]))
    else if |f| == 2 && (f[0] == '0' || f[0] == '1') && IsDigit(f[1]) then
      Some(10 * DigitValue(f[0]) + DigitValue(f[1]))
    else if |f| == 1 && IsDigit(f[0]) then Some(DigitValue(f[0]))
    else None
  }

  /** `%M` at the end of the format: the regular expression `[0-5]\d|\d`
      takes the longest of its alternatives that matches a prefix of `rest`;
      the result is the minute and the number of characters it took. */
  function MinutePrefix(rest: string): (r: Option<(int, nat)>)
    ensures r.Some? ==> 0 <= r.value.0 <= 59 && 1 <= r.value.1 <= |rest|
    ensures r.Some? ==> Numeral(rest[..r.value.1], r.value.0)
    ensures 1 <= |rest| <= 2 && AllDigits(rest) && DigitsValue(rest) <= 59 ==>
      r == Some((DigitsValue(rest), |rest|))
  {
    SmallDigits(rest);
    if |rest| >= 2 && '0' <= rest[0] <= '5' && IsDigit(rest[1]) then
      SmallDigits(rest[..2]);
      assert rest[..2][0] == rest[0] && rest[..2][1] == rest[1];
      Some((10 * DigitValue(rest[0]) + DigitValue(rest[1]), 2))
    else if |rest| >= 1 && IsDigit(rest[0]) then
      SmallDigits(rest[..1]);
      assert rest[..1][0] == rest[0];
      Some((DigitValue(rest[0]), 1))
    else None
  }

  function Mismatch(s: string, format: string): Exception
  {
    ValueError("time data '" + s + "' does not match format '" + format + "'")
  }

  function Unconverted(rest: string): Exception
  {
    ValueError("unconverted data remains: " + rest)
  }

  /** `datetime.strptime(s, "%d-%m-%Y").date()`. The day and month fields
      run up to the first and second `-`; the year is the next four digits,
      and anything after them is unconverted data. A day past the end of its
      month, or year 0, is rejected as `datetime.date` rejects it. */
  function ParseDmy(s: string): (r: Result<Date>)
    ensures r.Ok? ==> ValidDate(r.value)
  {
    var format := "%d-%m-%Y";
    match Strings.SplitFirst(s, '-')
    case None => Err(Mismatch(s, format))
    case Some((dd, rest)) =>
      match Strings.SplitFirst(rest, '-')
      case None => Err(Mismatch(s, format))
      case Some((mm, year)) => DmyFields(s, dd, mm, year)
  }

  /** The fields of `s` cut at its first two dashes, read as `ParseDmy`
      reads them. */
  function DmyFields(s: string, dd: string, mm: string, year: string): (r: Result<Date>)
    ensures r.Ok? ==> ValidDate(r.value)
  {
    var day := DayField(dd);
    var month := MonthField(mm);
    if day.None? || month.None? || |year| < 4 || !AllDigits(year[..4]) then
      Err(Mismatch(s, "%d-%m-%Y"))
    else if |year| > 4 then
      Err(Unconverted(year[4..]))
    else if (DigitsValueBound(year); DigitsValue(year) < MinYear) then
      Err(ValueError("year 0 is out of range"))
    else if day.value > DaysInMonth(DigitsValue(year), month.value) then
      Err(ValueError("day is out of range for month"))
    else
      Ok(Date(DigitsValue(year), month.value, day.value))
  }

  /** `datetime.strptime(s, "%H:%M").time()`. The hour field runs up to the
      first `:`; the minute takes what its pattern matches, and anything
      after it is unconverted data. */
  function ParseHm(s: string): (r: Result<Time>)
    ensures r.Ok? ==> ValidTime(r.value)
  {
    var format := "%H:%M";
    match Strings.SplitFirst(s, ':')
    case None => Err(Mismatch(s, format))
    case Some((hh, rest)) =>
      var hour := HourField(hh);
      var minute := MinutePrefix(rest);
      if hour.None? || minute.None? then Err(Mismatch(s, format))
      else if minute.value.1 < |rest| then Err(Unconverted(rest[minute.value.1..]))
      else Ok(Time(hour.value, minute.value.0))
  }

  /** The `dd-mm-yyyy` rendering of a date used by the roster's CSV export. */
  function FormatDmy(d: Date): string
    requires ValidDate(d)
  {
    Pad2(d.day) + "-" + Pad2(d.month) + "-" + Pad4(d.year)
  }

  /** The `HH:MM` rendering of a time of day used by the roster's CSV export. */
  function FormatHm(t: Time): string
    requires ValidTime(t)
  {
    Pad2(t.hour) + ":" + Pad2(t.minute)
  }

  lemma DayFieldPadded(n: int)
    requires 1 <= n <= 31
    ensures DayField(Pad2(n)) == Some(n)
  {
  }

  lemma MonthFieldPadded(n: int)
    requires 1 <= n <= 12
    ensures MonthField(Pad2(n)) == Some(n)
  {
  }

  lemma HourFieldPadded(n: int)
    requires 0 <= n <= 23
    ensures HourField(Pad2(n)) == Some(n)
  {
  }

  /** Every date rendered as `dd-mm-yyyy` parses back to itself. */
  lemma ParseDmyRoundTrip(d: Date)
    requires ValidDate(d)
    ensures ParseDmy(FormatDmy(d)) == Ok(d)
  {
    var dd, mm, yyyy := Pad2(d.day), Pad2(d.month), Pad4(d.year);
    assert FormatDmy(d) == dd + "-" + (mm + "-" + yyyy);
    Strings.SplitFirstAt(dd, '-', mm + "-" + yyyy);
    Strings.SplitFirstAt(mm, '-', yyyy);
    assert yyyy[..4] == yyyy;
    DayFieldPadded(d.day);
    MonthFieldPadded(d.month);
  }

  /** Every time rendered as `HH:MM` parses back to itself. */
  lemma ParseHmRoundTrip(t: Time)
    requires ValidTime(t)
    ensures ParseHm(FormatHm(t)) == Ok(t)
  {
    var hh, mm := Pad2(t.hour), Pad2(t.minute);
    Strings.SplitFirstAt(hh, ':', mm);
    HourFieldPadded(t.hour);
  }

  /** A date text is read field by field: whatever `ParseDmy` accepts is a
      day text, a dash, one or two month digits, a dash and four year
      digits, worth the day, month and year of the result. */
  lemma ParseDmyReads(s: string)
    ensures ParseDmy(s).Ok? ==> var d := ParseDmy(s).value;
      exists dd, mm, yyyy :: && s == dd + "-" + (mm + "-" + yyyy)
                             && DayText(dd, d.day) && Numeral(mm, d.month)
                             && |yyyy| == 4 && AllDigits(yyyy) && DigitsValue(yyyy) == d.year
  {
    if ParseDmy(s).Ok? {
      var (dd, rest) := Strings.SplitFirst(s, '-').value;
      var (mm, yyyy) := Strings.SplitFirst(rest, '-').value;
      assert yyyy[..4] == yyyy;
    }
  }

  /** Any day text, month text and four year digits are read as the date
      they spell, or rejected as `datetime.date` rejects year 0 and a day
      past the end of its month. */
  lemma ParseDmyFields(dd: string, mm: string, yyyy: string, day: int, month: int, year: int)
    requires DayText(dd, day) && 1 <= day <= 31
    requires Numeral(mm, month) && 1 <= month <= 12
    requires |yyyy| == 4 && AllDigits(yyyy) && DigitsValue(yyyy) == year
    ensures ParseDmy(dd + "-" + (mm + "-" + yyyy)) ==
      if year < MinYear then Err(ValueError("year 0 is out of range"))
      else if day > DaysInMonth(year, month) then Err(ValueError("day is out of range for month"))
      else Ok(Date(year, month, day))
  {
    ParseDmySplit(dd, mm, yyyy);
    DayFieldReads(dd, day);
    DmyFieldsRead(dd + "-" + (mm + "-" + yyyy), dd, mm, yyyy, day, month, year);
  }

  lemma DmyFieldsRead(s: string, dd: string, mm: string, yyyy: string, day: int, month: int, year: int)
    requires DayField(dd) == Some(day) && Numeral(mm, month) && 1 <= month <= 12
    requires |yyyy| == 4 && AllDigits(yyyy) && DigitsValue(yyyy) == year
    ensures DmyFields(s, dd, mm, yyyy) ==
      if year < MinYear then Err(ValueError("year 0 is out of range"))
      else if day > DaysInMonth(year, month) then Err(ValueError("day is out of range for month"))
      else Ok(Date(year, month, day))
  {
    assert yyyy[..4] == yyyy;
    assert MonthField(mm) == Some(month);
  }

  /** Every `%d` day text is read as the day it spells. */
  lemma DayFieldReads(dd: string, day: int)
    requires DayText(dd, day) && 1 <= day <= 31
    ensures DayField(dd) == Some(day)
  {
    if !Numeral(dd, day) {
      assert IsNonZeroDigit(dd[1]);
    }
  }

  /** Text cut by two dashes is read as its three fields. */
  lemma ParseDmySplit(dd: string, mm: string, year: string)
    requires '-' !in dd && '-' !in mm
    ensures ParseDmy(dd + "-" + (mm + "-" + year)) == DmyFields(dd + "-" + (mm + "-" + year), dd, mm, year)
  {
    Strings.SplitFirstAt(dd, '-', mm + "-" + year);
    Strings.SplitFirstAt(mm, '-', year);
  }

  /** A time text is read field by field: whatever `ParseHm` accepts is one
      or two hour digits, a colon and one or two minute digits, worth the
      hour and minute of the result. */
  lemma ParseHmReads(s: string)
    ensures ParseHm(s).Ok? ==> var t := ParseHm(s).value;
      exists hh, mm :: s == hh + ":" + mm && Numeral(hh, t.hour) && Numeral(mm, t.minute)
  {
    if ParseHm(s).Ok? {
      var (hh, rest) := Strings.SplitFirst(s, ':').value;
      assert rest[..|rest|] == rest;
    }
  }

  /** Any hour and minute digits within range are read as the time they
      spell. */
  lemma ParseHmFields(hh: string, mm: string, hour: int, minute: int)
    requires Numeral(hh, hour) && hour <= 23
    requires Numeral(mm, minute) && minute <= 59
    ensures ParseHm(hh + ":" + mm) == Ok(Time(hour, minute))
  {
    Strings.SplitFirstAt(hh, ':', mm);
  }

  /** An hour past 23 does not match `%H`. */
  lemma ParseHmHourOutOfRange(hh: string, mm: string, hour: int)
    requires Numeral(hh, hour) && hour > 23
    ensures ParseHm(hh + ":" + mm) == Err(Mismatch(hh + ":" + mm, "%H:%M"))
  {
    Strings.SplitFirstAt(hh, ':', mm);
  }

  /** February 2024 has no 31st. */
  lemma NoThirtyFirstOfFebruary()
    ensures ParseDmy("31-02-2024") == Err(ValueError("day is out of range for month"))
  {
    assert "31" + "-" + ("02" + "-" + "2024") == "31-02-2024";
    Year2024();
    SmallDigits("31");
    SmallDigits("02");
    assert DaysInMonth(2024, 2) == 29;
    ParseDmyFields("31", "02", "2024", 31, 2, 2024);
  }

  /** A one-digit day is read as that day. */
  lemma OneDigitDay()
    ensures ParseDmy("1-01-2024") == Ok(Date(2024, 1, 1))
  {
    assert "1" + "-" + ("01" + "-" + "2024") == "1-01-2024";
    Year2024();
    SmallDigits("1");
    SmallDigits("01");
    assert DaysInMonth(2024, 1) == 31;
    ParseDmyFields("1", "01", "2024", 1, 1, 2024);
  }

  lemma Year2024()
    ensures AllDigits("2024") && DigitsValue("2024") == 2024
  {
    assert "2024"[..3] == "202" && "202"[..2] == "20" && "20"[..1] == "2" && "2"[..0] == "";
  }

  /** Hour 24 does not exist. */
  lemma NoHourTwentyFour()
    ensures ParseHm("24:00") == Err(Mismatch("24:00", "%H:%M"))
  {
    assert "24" + ":" + "00" == "24:00";
    SmallDigits("24");
    ParseHmHourOutOfRange("24", "00", 24);
  }

  /** A one-digit hour is read as that hour. */
  lemma OneDigitHour()
    ensures ParseHm("9:30") == Ok(Time(9, 30))
  {
    assert "9" + ":" + "30" == "9:30";
    SmallDigits("9");
    SmallDigits("30");
    ParseHmFields("9", "30", 9, 30);
  }

  /** Text after a rendered date is unconverted data, and it is reported. */
  lemma ParseDmyTrailing(d: Date, extra: string)
    requires ValidDate(d)
    requires |extra| > 0
    ensures ParseDmy(FormatDmy(d) + extra) == Err(Unconverted(extra))
  {
    var dd, mm, yyyy := Pad2(d.day), Pad2(d.month), Pad4(d.year);
    var year := yyyy + extra;
    assert FormatDmy(d) + extra == dd + "-" + (mm + "-" + year);
    Strings.SplitFirstAt(dd, '-', mm + "-" + year);
    Strings.SplitFirstAt(mm, '-', year);
    assert year[..4] == yyyy && year[4..] == extra;
    DayFieldPadded(d.day);
    MonthFieldPadded(d.month);
  }

  /** Text after a rendered time is unconverted data, and it is reported. */
  lemma ParseHmTrailing(t: Time, extra: string)
    requires ValidTime(t)
    requires |extra| > 0
    ensures ParseHm(FormatHm(t) + extra) == Err(Unconverted(extra))
  {
    var hh, mm := Pad2(t.hour), Pad2(t.minute);
    var rest := mm + extra;
    assert FormatHm(t) + extra == hh + ":" + rest;
    Strings.SplitFirstAt(hh, ':', rest);
    assert rest[..2] == mm && rest[2..] == extra;
    HourFieldPadded(t.hour);
  }
}

=== FILE: decimal.dfy ===
/** Decimal digits: Python's `str(n)` and `int(s)` on integers, and the
    fixed-width zero-padded renderings `strftime` uses. */
module Decimal {

  import opened Wrappers
  import Strings

  predicate IsDigit(c: char)
  {
    '0' <= c <= '9'
  }

  predicate AllDigits(s: string)
  {
    forall i :: 0 <= i < |s| ==> IsDigit(s[i])
  }

  function DigitValue(c: char): (d: nat)
    requires IsDigit(c)
    ensures d < 10
  {
    c as int - '0' as int
  }

  function DigitChar(d: nat): (c: char)
    requires d < 10
    ensures IsDigit(c) && DigitValue(c) == d
  {
    ('0' as int + d) as char
  }

  /** The value of a string of decimal digits, most significant digit first;
      the empty string is worth 0. */
  function DigitsValue(s: string): nat
    requires AllDigits(s)
  {
    if |s| == 0 then 0 else DigitsValue(s[..|s| - 1]) * 10 + DigitValue(s[|s| - 1])
  }

  function Pow10(n: nat): (p: nat)
    ensures p >= 1
  {
    if n == 0 then 1 else 10 * Pow10(n - 1)
  }

  /** `k` digits are worth less than `10^k`. */
  lemma {:induction false} DigitsValueBound(s: string)
    requires AllDigits(s)
    ensures DigitsValue(s) < Pow10(|s|)
  {
    if |s| > 0 {
      DigitsValueBound(s[..|s| - 1]);
    }
  }

  /** The value of one or two digits. */
  lemma SmallDigits(f: string)
    ensures 1 <= |f| <= 2 && AllDigits(f) ==>
      DigitsValue(f) == if |f| == 1 then DigitValue(f[0]) else 10 * DigitValue(f[0]) + DigitValue(f[1])
  {
    if 1 <= |f| <= 2 && AllDigits(f) {
      assert f[..|f| - 1][..0] == [];
      if |f| == 2 {
        assert f[..1][..0] == [];
      }
    }
  }

  /** Python's `str(n)` for a non-negative integer: the shortest rendering,
      without leading zeros. */
  function NatToString(n: nat): (s: string)
    ensures |s| > 0 && AllDigits(s)
    ensures |s| > 1 ==> s[0] != '0'
  {
    if n < 10 then [DigitChar(n)] else NatToString(n / 10) + [DigitChar(n % 10)]
  }

  lemma {:induction false} NatToStringValue(n: nat)
    ensures DigitsValue(NatToString(n)) == n
  {
    if n >= 10 {
      var s := NatToString(n);
      assert s[..|s| - 1] == NatToString(n / 10);
      NatToStringValue(n / 10);
    }
  }

  /** Python's `str(n)` for any integer. */
  function IntToString(n: int): (s: string)
  {
    if n < 0 then "-" + NatToString(-n) else NatToString(n)
  }

  /** `s` is a run of digits in which single underscores may separate
      digits, as Python's integer literals allow: `1_000` but not `_1`,
      `1_` or `1__0`. */
  predicate IsDigitGroups(s: string)
  {
    && |s| > 0
    && IsDigit(s[0])
    && IsDigit(s[|s| - 1])
    && (forall i :: 0 <= i < |s| ==> IsDigit(s[i]) || s[i] == '_')
    && (forall i :: 0 <= i < |s| - 1 && s[i] == '_' ==> IsDigit(s[i + 1]))
  }

  /** `s` with its underscores removed. */
  function WithoutUnderscores(s: string): (t: string)
    requires forall i :: 0 <= i < |s| ==> IsDigit(s[i]) || s[i] == '_'
    ensures AllDigits(t)
    ensures AllDigits(s) ==> t == s
  {
    if |s| == 0 then ""
    else (if s[0] == '_' then "" else [s[0]]) + WithoutUnderscores(s[1..])
  }

  /** `%.200R` of `s`: the text between single quotes, cut to its first
      200 characters. */
  function Quoted(s: string): (q: string)
    ensures |q| == if |s| + 2 <= 200 then |s| + 2 else 200
    ensures q <= "'" + s + "'"
    ensures |s| <= 198 ==> q == "'" + s + "'"
    ensures |s| > 198 ==> q == "'" + s[..199]
  {
    var full := "'" + s + "'";
    if |full| <= 200 then full
    else
      assert full[..200] == "'" + s[..199];
      full[..200]
  }

  /** The ValueError `int()` raises for text that is not a literal. */
  function InvalidLiteral(s: string): Exception
  {
    ValueError("invalid literal for int() with base 10: " + Quoted(s))
  }

    /** Python's `int(s)` for a `str` argument: surrounding whitespace is
      ignored, one optional sign, then digit groups; anything else raises
      ValueError. */
  function ParseInt(s: string): (r: Result<int>)
    ensures r.Err? ==> r.error == InvalidLiteral(s)
    ensures r.Ok? ==> exists c :: c in s && IsDigit(c)
  {
    ParseStripped(Strings.Strip(s), s)
  }

  /** `int(s)` once `s` is stripped to `t`. */
  function ParseStripped(t: string, s: string): (r: Result<int>)
    ensures r.Err? ==> r.error == InvalidLiteral(s)
    ensures r.Ok? ==> exists c :: c in t && IsDigit(c)
  {
    var negative := |t| > 0 && t[0] == '-';
    var body := if |t| > 0 && (t[0] == '-' || t[0] == '+') then t[1..] else t;
    if IsDigitGroups(body) then
      var v: int := DigitsValue(WithoutUnderscores(body));
      Ok(if negative then -v else v)
    else
      Err(InvalidLiteral(s))
  }

  /** `int(str(n)) == n` for every integer. */
  lemma IntRoundTrip(n: int)
    ensures ParseInt(IntToString(n)) == Ok(n)
  {
    var m: nat := if n < 0 then -n else n;
    NatToStringValue(m);
    if n < 0 {
      NegatedDigits(NatToString(m));
    } else {
      PlainDigits(NatToString(m));
    }
  }

  /** Plain digits read as their value. */
  lemma PlainDigits(digits: string)
    requires |digits| > 0 && AllDigits(digits)
    ensures ParseInt(digits) == Ok(DigitsValue(digits))
  {
    assert IsDigit(digits[0]) && IsDigit(digits[|digits| - 1]);
    Strings.StripUnpadded(digits);
    assert !(digits[0] == '-' || digits[0] == '+');
    assert IsDigitGroups(digits);
    assert WithoutUnderscores(digits) == digits;
  }

  /** A minus sign before digits negates their value. */
  lemma NegatedDigits(digits: string)
    requires |digits| > 0 && AllDigits(digits)
    ensures var v: int := DigitsValue(digits); ParseInt("-" + digits) == Ok(-v)
  {
    var s := "-" + digits;
    assert s[0] == '-' && s[|s| - 1] == digits[|digits| - 1];
    assert IsDigit(digits[|digits| - 1]);
    Strings.StripUnpadded(s);
    NegativeBody(s, s, digits);
  }

  lemma NegativeBody(t: string, s: string, digits: string)
    requires |t| > 0 && t[0] == '-' && t[1..] == digits
    requires |digits| > 0 && AllDigits(digits)
    ensures var v: int := DigitsValue(digits); ParseStripped(t, s) == Ok(-v)
  {
    assert IsDigitGroups(digits);
    assert WithoutUnderscores(digits) == digits;
  }

  /** `s` is an integer literal as `int()` reads it: optional whitespace,
      an optional sign, digit groups, optional whitespace. */
  predicate IntLiteral(s: string, lead: string, sign: string, g: string, trail: string)
  {
    && s == lead + (sign + g) + trail
    && Strings.AllSpace(lead) && Strings.AllSpace(trail)
    && (sign == "" || sign == "+" || sign == "-")
    && IsDigitGroups(g)
  }

  /** The value of digit groups `g` under `sign`. */
  function SignedValue(sign: string, g: string): int
    requires forall i :: 0 <= i < |g| ==> IsDigit(g[i]) || g[i] == '_'
  {
    var v: int := DigitsValue(WithoutUnderscores(g));
    if sign == "-" then -v else v
  }

  /** Every accepted text is an integer literal, and its value is that of
      its digit groups under its sign. */
  lemma ParseIntReads(s: string)
    ensures ParseInt(s).Ok? ==> exists lead, sign, g, trail ::
      IntLiteral(s, lead, sign, g, trail) && ParseInt(s).value == SignedValue(sign, g)
  {
    var t := Strings.Strip(s);
    if ParseStripped(t, s).Ok? {
      var lead, trail := Strings.StripSplit(s);
      var sign, g := StrippedReads(t, s);
      assert IntLiteral(s, lead, sign, g, trail);
    }
  }

  /** An accepted stripped text is a sign followed by digit groups. */
  lemma StrippedReads(t: string, s: string) returns (sign: string, g: string)
    requires ParseStripped(t, s).Ok?
    ensures t == sign + g
    ensures sign == "" || sign == "+" || sign == "-"
    ensures IsDigitGroups(g) && ParseStripped(t, s).value == SignedValue(sign, g)
  {
    var signed := |t| > 0 && (t[0] == '-' || t[0] == '+');
    sign := if signed then t[..1] else "";
    g := if signed then t[1..] else t;
    assert t == sign + g;
  }

  /** Every integer literal is accepted, whitespace, sign and underscores
      included, with the value of its digit groups under its sign. */
  lemma ParseIntAccepts(lead: string, sign: string, g: string, trail: string)
    requires IntLiteral(lead + (sign + g) + trail, lead, sign, g, trail)
    ensures ParseInt(lead + (sign + g) + trail) == Ok(SignedValue(sign, g))
  {
    var core := sign + g;
    assert core[|core| - 1] == g[|g| - 1];
    assert core[0] == if sign == "" then g[0] else sign[0];
    Strings.StripPadded(lead, core, trail);
    StrippedAccepts(sign, g, lead + core + trail);
  }

  lemma StrippedAccepts(sign: string, g: string, s: string)
    requires sign == "" || sign == "+" || sign == "-"
    requires IsDigitGroups(g)
    ensures ParseStripped(sign + g, s) == Ok(SignedValue(sign, g))
  {
    var t := sign + g;
    assert |t| > 0 && t[0] == (if sign == "" then g[0] else sign[0]);
    assert (t[0] == '-' || t[0] == '+') <==> sign != "";
    assert sign != "" ==> t[1..] == g;
    assert sign == "" ==> t == g;
  }

  /** Surrounding whitespace is ignored. */
  lemma PaddedExample()
    ensures ParseInt(" 12") == Ok(12)
  {
    assert " 12" == " " + ("" + "12") + "";
    assert IsDigitGroups("12") && WithoutUnderscores("12") == "12";
    assert DigitsValue("12") == 12 by { assert "12"[..1] == "1"; }
    ParseIntAccepts(" ", "", "12", "");
  }

  /** A leading plus sign is accepted. */
  lemma PlusExample()
    ensures ParseInt("+5") == Ok(5)
  {
    assert "" + ("+" + "5") + "" == "+5";
    assert IsDigitGroups("5") && WithoutUnderscores("5") == "5";
    assert SignedValue("+", "5") == 5 by { assert DigitsValue("5") == 5; }
    ParseIntAccepts("", "+", "5", "");
  }

  /** Underscores between digits are accepted and ignored. */
  lemma UnderscoreExample()
    ensures ParseInt("1_000") == Ok(1000)
  {
    assert "1_000" == "" + ("" + "1_000") + "";
    ThousandValue();
    ParseIntAccepts("", "", "1_000", "");
  }

  /** A sign after the first character is rejected. */
  lemma InnerSignExample()
    ensures ParseInt("1-2") == Err(ValueError("invalid literal for int() with base 10: '1-2'"))
  {
    Strings.StripUnpadded("1-2");
    assert !IsDigitGroups("1-2") by { assert "1-2"[1] == '-'; }
  }

  /** An information separator is not whitespace to `int()`. */
  lemma SeparatorExample()
    ensures ParseInt("\U{1C}5") == Err(InvalidLiteral("\U{1C}5"))
  {
    ParseIntRejectsForeign("\U{1C}5", 0);
  }

  /** A no-break space is whitespace to `int()`. */
  lemma NoBreakSpaceExample()
    ensures ParseInt("\U{A0}5") == Ok(5)
  {
    assert "\U{A0}" + ("" + "5") + "" == "\U{A0}5";
    assert IsDigitGroups("5") && WithoutUnderscores("5") == "5";
    assert SignedValue("", "5") == 5 by { assert DigitsValue("5") == 5; }
    ParseIntAccepts("\U{A0}", "", "5", "");
  }

  lemma ThousandValue()
    ensures IsDigitGroups("1_000") && WithoutUnderscores("1_000") == "1000"
    ensures DigitsValue("1000") == 1000
  {
    var s := "1_000";
    assert s[1..] == "_000" && s[1..][1..] == "000";
    assert WithoutUnderscores("0") == "0" by { assert "0"[1..] == ""; }
    assert WithoutUnderscores("00") == "00" by { assert "00"[1..] == "0"; }
    assert WithoutUnderscores("000") == "000" by { assert "000"[1..] == "00"; }
    assert "1000"[..3] == "100" && "100"[..2] == "10" && "10"[..1] == "1";
  }

  /** A character that is neither a digit, whitespace, a sign nor an
      underscore makes `int()` raise ValueError. */
  lemma ParseIntRejectsForeign(s: string, k: int)
    requires 0 <= k < |s|
    requires !IsDigit(s[k]) && !Strings.IsSpace(s[k]) && s[k] !in "+-_"
    ensures ParseInt(s) == Err(InvalidLiteral(s))
  {
    var t := Strings.Strip(s);
    var i, j :| Strings.StrippedAt(s, i, j) && t == s[i..j];
    assert i <= k < j;
    assert t[k - i] == s[k];
    var body := if |t| > 0 && (t[0] == '-' || t[0] == '+') then t[1..] else t;
    if body == t[1..] {
      assert k - i > 0;
      assert body[k - i - 1] == s[k];
    } else {
      assert body[k - i] == s[k];
    }
    assert !IsDigitGroups(body);
  }

  /** The two-digit zero-padded rendering of `%d`, `%m`, `%H` and `%M`. */
  function Pad2(n: nat): (s: string)
    requires n < 100
    ensures |s| == 2 && AllDigits(s) && DigitsValue(s) == n
  {
    var s := [DigitChar(n / 10), DigitChar(n % 10)];
    assert DigitsValue(s[..1]) == n / 10 by {
      assert s[..1][..0] == [];
    }
    s
  }

  /** The four-digit zero-padded rendering of `%Y`: the hundreds, then
      the rest, each as two digits. */
  function Pad4(n: nat): (s: string)
    requires n < 10000
    ensures |s| == 4 && AllDigits(s) && DigitsValue(s) == n
  {
    var high, low := Pad2(n / 100), Pad2(n % 100);
    TwoPairs(high, low);
    high + low
  }

  /** Four digits are worth the first two times a hundred plus the last two. */
  lemma TwoPairs(high: string, low: string)
    requires |high| == 2 && AllDigits(high) && |low| == 2 && AllDigits(low)
    ensures AllDigits(high + low)
    ensures DigitsValue(high + low) == 100 * DigitsValue(high) + DigitsValue(low)
  {
    var s := high + low;
    assert s[..3] == high + low[..1] && s[..3][..2] == high;
    assert low[..1][..0] == [] && s[3] == low[1] && s[..3][2] == low[0];
    assert DigitsValue(low[..1]) == DigitValue(low[0]);
  }
}

=== FILE: html.dfy ===
/** A parsed HTML document as the scraping code sees it: a forest of
    elements, each a tag (name and attributes) with child elements. Finding
    a tag means taking the first match in document order, which is the
    pre-order of the forest, as BeautifulSoup's `find` does. Parsing raw
    text into this shape is a parameter of the model. */
module Html {

  import opened Wrappers

  datatype Tag = Tag(name: string, attrs: map<string, string>)

  datatype Element = Element(tag: Tag, children: seq<Element>)

  type Document = seq<Element>

  /** Every element of `doc`, in document order: each element comes before
      its descendants, and those before its later siblings. */
  function Elements(doc: Document): (es: seq<Element>)
    ensures |doc| > 0 ==> |es| > 0 && es[0] == doc[0]
    ensures forall e :: e in doc ==> e in es
    decreases doc
  {
    if |doc| == 0 then []
    else [doc[0]] + Elements(doc[0].children) + Elements(doc[1..])
  }

  /** BeautifulSoup's `find(name, attrs)` filter: the tag has that name and
      every listed attribute with exactly that value. */
  predicate Matches(t: Tag, name: string, filter: map<string, string>)
  {
    t.name == name && forall k :: k in filter ==> k in t.attrs && t.attrs[k] == filter[k]
  }

  /** The index of the first element of `es` whose tag matches. */
  function FirstMatch(es: seq<Element>, name: string, filter: map<string, string>): (r: Option<nat>)
    ensures r.Some? ==> r.value < |es| && Matches(es[r.value].tag, name, filter)
    ensures r.Some? ==> forall k :: 0 <= k < r.value ==> !Matches(es[k].tag, name, filter)
    ensures r.None? ==> forall k :: 0 <= k < |es| ==> !Matches(es[k].tag, name, filter)
  {
    if |es| == 0 then None
    else if Matches(es[0].tag, name, filter) then Some(0)
    else match FirstMatch(es[1..], name, filter)
      case None => None
      case Some(i) => Some(i + 1)
  }

  /** `es[i]` is the first element of `es` whose tag matches. */
  predicate IsFirstMatch(es: seq<Element>, i: int, name: string, filter: map<string, string>)
  {
    && 0 <= i < |es|
    && Matches(es[i].tag, name, filter)
    && forall k :: 0 <= k < i ==> !Matches(es[k].tag, name, filter)
  }

  /** `soup.find(name, attrs)`: the first matching element in document
      order, or None. */
  function Find(doc: Document, name: string, filter: map<string, string>): (r: Option<Element>)
    ensures r.Some? <==> exists e :: e in Elements(doc) && Matches(e.tag, name, filter)
    ensures r.Some? ==> exists i :: IsFirstMatch(Elements(doc), i, name, filter) && r.value == Elements(doc)[i]
  {
    var es := Elements(doc);
    match FirstMatch(es, name, filter)
    case None => None
    case Some(i) => assert IsFirstMatch(es, i, name, filter); Some(es[i])
  }

  /** The first match in document order is what `find` returns. */
  lemma FirstMatchIsFound(doc: Document, i: int, name: string, filter: map<string, string>)
    requires IsFirstMatch(Elements(doc), i, name, filter)
    ensures Find(doc, name, filter) == Some(Elements(doc)[i])
  {
    var es := Elements(doc);
    var r := FirstMatch(es, name, filter);
    assert r.Some?;
    assert r.value == i;
  }

  /** `element.find_all(name)`: the tags named `name` among the descendants
      of `e`, in document order. */
  function FindAll(e: Element, name: string): (ts: seq<Tag>)
    ensures forall t :: t in ts ==> t.name == name
    ensures forall t :: t in ts ==> exists d :: d in Elements(e.children) && d.tag == t
    ensures forall d :: d in Elements(e.children) && d.tag.name == name ==> d.tag in ts
  {
    TagsNamed(Elements(e.children), name)
  }

  /** The tags of `es` named `name`, in order. */
  function TagsNamed(es: seq<Element>, name: string): (ts: seq<Tag>)
    ensures forall t :: t in ts ==> t.name == name
    ensures forall t :: t in ts ==> exists e :: e in es && e.tag == t
    ensures forall e :: e in es && e.tag.name == name ==> e.tag in ts
  {
    if |es| == 0 then []
    else (if es[0].tag.name == name then [es[0].tag] else []) + TagsNamed(es[1..], name)
  }

  /** Selection keeps document order: the tags of a concatenation are those
      of the first part followed by those of the second. */
  lemma {:induction false} TagsNamedAppend(a: seq<Element>, b: seq<Element>, name: string)
    ensures TagsNamed(a + b, name) == TagsNamed(a, name) + TagsNamed(b, name)
  {
    if |a| == 0 {
      assert a + b == b;
    } else {
      assert (a + b)[0] == a[0] && (a + b)[1..] == a[1..] + b;
      TagsNamedAppend(a[1..], b, name);
    }
  }

  /** A single element contributes its own tag when it has the name, and
      nothing otherwise. */
  lemma TagsNamedSingleton(x: Element, name: string)
    ensures TagsNamed([x], name) == if x.tag.name == name then [x.tag] else []
  {
    assert [x][1..] == [];
  }

  /** The elements of a concatenated forest are those of the first part
      followed by those of the second. */
  lemma {:induction false} ElementsAppend(a: Document, b: Document)
    ensures Elements(a + b) == Elements(a) + Elements(b)
    decreases a
  {
    if |a| == 0 {
      assert a + b == b;
    } else {
      assert (a + b)[0] == a[0] && (a + b)[1..] == a[1..] + b;
      ElementsAppend(a[1..], b);
    }
  }

  /** `find_all` over consecutive children is the concatenation of the
      searches over each group, so the result keeps document order and
      every match once. */
  lemma FindAllSplit(t: Tag, a: Document, b: Document, name: string)
    ensures FindAll(Element(t, a + b), name) == FindAll(Element(t, a), name) + FindAll(Element(t, b), name)
  {
    ElementsAppend(a, b);
    TagsNamedAppend(Elements(a), Elements(b), name);
  }

  /** `find_all` under one child: the child itself, when it has the name,
      comes before the matches among its own descendants. */
  lemma FindAllChild(t: Tag, c: Element, name: string)
    ensures FindAll(Element(t, [c]), name) ==
      (if c.tag.name == name then [c.tag] else []) + FindAll(c, name)
  {
    assert Elements([c]) == [c] + Elements(c.children) + Elements([]);
    assert Elements([c]) == [c] + Elements(c.children);
    TagsNamedAppend([c], Elements(c.children), name);
    TagsNamedSingleton(c, name);
  }

  /** An element without children has nothing to find. */
  lemma FindAllLeaf(t: Tag, name: string)
    ensures FindAll(Element(t, []), name) == []
  {
  }
}

=== FILE: inzetrooster.dfy ===
/** The roster-service client: CSRF token scraping, the login state, and
    the shift-export form replay.

    HTTP is not modelled: a page fetched with GET is a `Response` value,
    and the service's answer to a form POST is the `Server` function
    applied to the URL and the form. Turning raw HTML into a `Document` is
    the `Parser` parameter. */
module Inzetrooster {

  import opened Wrappers
  import opened Html
  import opened Calendar
  import Strings
  import Decimal

  /** The form field and hidden-input name that carries the CSRF token. */
  const CsrfTokenName := "authenticity_token"

  /** The text of the login reply that signals rejected credentials. */
  const LoginFailureMarker := "Geen geldige gebruikersnaam"

  /** The export window is 52 weeks from today. */
  const ExportWeeks := 52

  const BaseUrl := "https://inzetrooster.nl/"

  /** An HTTP response. Header names are lower case, as httpx compares
      them without regard to case. */
  datatype Response = Response(status: int, headers: map<string, string>, text: string)

  /** A form field's value: one string, or a list sent as repeated fields. */
  datatype FieldValue = Single(text: string) | Many(items: seq<string>)

  datatype Field = Field(name: string, value: FieldValue)

  /** Form data, in the order the fields are written. */
  type Form = seq<Field>

  /** The roster service's reply to a POST of a form to a URL. */
  type Server = (string, Form) -> Response

  /** The HTML parser. */
  type Parser = string -> Document

  /** A session with the roster service for one organisation. */
  datatype Client = Client(organisation: string, isLoggedIn: bool)

  /** The value of the first field called `name`. */
  function Lookup(form: Form, name: string): Option<FieldValue>
  {
    if |form| == 0 then None
    else if form[0].name == name then Some(form[0].value)
    else Lookup(form[1..], name)
  }

  // ---------------------------------------------------------------- CSRF

  const CsrfMetaFilter := map["name" := "csrf-token"]
  const CsrfInputFilter := map["type" := "hidden", "name" := CsrfTokenName]

  /** `tag.attrs[key]`, which raises KeyError when the attribute is absent. */
  function Attr(t: Tag, key: string): (r: Result<string>)
  {
    if key in t.attrs then Ok(t.attrs[key]) else Err(KeyError(key))
  }

  /** `t` is a tag the token can be read from, and `r` is what it yields. */
  predicate TokenSource(t: Tag, r: Result<string>)
  {
    || (Matches(t, "meta", CsrfMetaFilter) && Attr(t, "content") == r)
    || (Matches(t, "input", CsrfInputFilter) && Attr(t, "value") == r)
  }

  /** The token a parsed page carries: the `content` of the first
      `meta name="csrf-token"` tag, else the `value` of the first hidden
      `input name="authenticity_token"`; with neither, ValueError. */
  function PageToken(doc: Document): (r: Result<string>)
    ensures r.Ok? ==> exists e :: e in Elements(doc) && TokenSource(e.tag, r)
  {
    match Find(doc, "meta", CsrfMetaFilter)
    case Some(meta) => Attr(meta.tag, "content")
    case None =>
      match Find(doc, "input", CsrfInputFilter)
      case Some(input) => Attr(input.tag, "value")
      case None => Err(ValueError("no CSRF token found"))
  }

  /** `get_csrf(html=..., soup=...)`: exactly one of the raw page and the
      parsed page is supplied; the raw page is parsed first. */
  function GetCsrf(html: Option<string>, soup: Option<Document>, parse: Parser): (r: Result<string>)
    requires html.Some? != soup.Some?
    ensures html.Some? ==> r == PageToken(parse(html.value))
    ensures soup.Some? ==> r == PageToken(soup.value)
  {
    var doc := if soup.Some? then soup.value else parse(html.value);
    PageToken(doc)
  }

  /** A `csrf-token` meta tag decides the token, whatever hidden inputs the
      page also has. */
  lemma MetaTokenPreferred(doc: Document, i: int)
    requires IsFirstMatch(Elements(doc), i, "meta", CsrfMetaFilter)
    ensures PageToken(doc) == Attr(Elements(doc)[i].tag, "content")
    ensures "content" in Elements(doc)[i].tag.attrs ==>
      PageToken(doc) == Ok(Elements(doc)[i].tag.attrs["content"])
  {
    FirstMatchIsFound(doc, i, "meta", CsrfMetaFilter);
  }

  /** Without such a meta tag, the first hidden `authenticity_token` input
      gives the token. */
  lemma HiddenInputToken(doc: Document, i: int)
    requires forall e :: e in Elements(doc) ==> !Matches(e.tag, "meta", CsrfMetaFilter)
    requires IsFirstMatch(Elements(doc), i, "input", CsrfInputFilter)
    ensures PageToken(doc) == Attr(Elements(doc)[i].tag, "value")
    ensures "value" in Elements(doc)[i].tag.attrs ==>
      PageToken(doc) == Ok(Elements(doc)[i].tag.attrs["value"])
  {
    FirstMatchIsFound(doc, i, "input", CsrfInputFilter);
  }

  /** With neither tag, extraction fails with "no CSRF token found". */
  lemma NoTokenFails(doc: Document)
    requires forall e :: e in Elements(doc) ==> !Matches(e.tag, "meta", CsrfMetaFilter)
    requires forall e :: e in Elements(doc) ==> !Matches(e.tag, "input", CsrfInputFilter)
    ensures PageToken(doc) == Err(ValueError("no CSRF token found"))
  {
  }

  /** The hidden token input of the token tests' pages. */
  const HiddenTokenInput := Element(Tag("input", map["type" := "hidden", "name" := CsrfTokenName, "value" := "SECRET"]), [])

  /** The meta tag of the second test page. */
  const CsrfMeta := Element(Tag("meta", map["name" := "csrf-token", "content" := "VERY SECRET"]), [])

  lemma HiddenInputMatches()
    ensures Matches(HiddenTokenInput.tag, "input", CsrfInputFilter)
    ensures !Matches(HiddenTokenInput.tag, "meta", CsrfMetaFilter)
  {
    var attrs := HiddenTokenInput.tag.attrs;
    assert attrs["type"] == "hidden" && attrs["name"] == CsrfTokenName;
  }

  lemma CsrfMetaMatches()
    ensures Matches(CsrfMeta.tag, "meta", CsrfMetaFilter)
  {
    assert CsrfMeta.tag.attrs["name"] == "csrf-token";
  }

  /** First token test: a page whose only token is the hidden input. */
  lemma HiddenInputExample()
    ensures PageToken([Element(Tag("html", map[]), [HiddenTokenInput])]) == Ok("SECRET")
  {
    var doc := [Element(Tag("html", map[]), [HiddenTokenInput])];
    assert Elements([HiddenTokenInput]) == [HiddenTokenInput];
    assert Elements(doc) == [doc[0], HiddenTokenInput];
    HiddenInputMatches();
    HiddenInputToken(doc, 1);
    assert HiddenTokenInput.tag.attrs["value"] == "SECRET";
  }

  /** Second token test: the meta tag wins over the hidden input after it. */
  lemma MetaExample()
    ensures PageToken([Element(Tag("html", map[]), [CsrfMeta, HiddenTokenInput])]) == Ok("VERY SECRET")
  {
    var doc := [Element(Tag("html", map[]), [CsrfMeta, HiddenTokenInput])];
    assert Elements([HiddenTokenInput]) == [HiddenTokenInput];
    assert Elements([CsrfMeta, HiddenTokenInput]) == [CsrfMeta] + Elements([HiddenTokenInput]);
    assert Elements(doc) == [doc[0], CsrfMeta, HiddenTokenInput];
    CsrfMetaMatches();
    MetaTokenPreferred(doc, 1);
    assert CsrfMeta.tag.attrs["content"] == "VERY SECRET";
  }

  /** Third token test: a page with neither tag has no token. */
  lemma NoTokenExample()
    ensures PageToken([Element(Tag("html", map[]), [])]) == Err(ValueError("no CSRF token found"))
  {
    var doc := [Element(Tag("html", map[]), [])];
    assert Elements(doc) == [doc[0]];
    NoTokenFails(doc);
  }

  // --------------------------------------------------------------- login

  /** A client for `organisation` that has not logged in yet. */
  function NewClient(organisation: string): (c: Client)
    ensures !c.isLoggedIn && c.organisation == organisation
  {
    Client(organisation, false)
  }

  function LoginUrl(organisation: string): string
  {
    BaseUrl + organisation + "/login"
  }

  /** The credentials form posted to the login URL. */
  function LoginForm(token: string, username: string, password: string): Form
  {
    [Field(CsrfTokenName, Single(token)), Field("username", Single(username)),
     Field("password", Single(password))]
  }

  /** `login(username, password)`: take the token from the login page, post
      it with the credentials, and set the logged-in flag from the reply.
      A reply containing the failure marker clears the flag and raises
      "invalid credentials"; a page without a token raises before the flag
      is touched. */
  function Login(c: Client, username: string, password: string, loginPage: Response,
                 server: Server, parse: Parser): (r: (Client, Result<()>))
    ensures r.0.organisation == c.organisation
    ensures PageToken(parse(loginPage.text)).Err? ==>
      r == (c, Err(PageToken(parse(loginPage.text)).error))
    ensures PageToken(parse(loginPage.text)).Ok? ==>
      var reply := server(LoginUrl(c.organisation),
                          LoginForm(PageToken(parse(loginPage.text)).value, username, password));
      && (r.0.isLoggedIn <==> !exists i :: Strings.OccursAt(reply.text, LoginFailureMarker, i))
      && (r.1.Ok? <==> r.0.isLoggedIn)
      && (r.1.Err? ==> r.1.error == ValueError("invalid credentials"))
  {
    match GetCsrf(Some(loginPage.text), None, parse)
    case Err(e) => (c, Err(e))
    case Ok(token) =>
      var reply := server(LoginUrl(c.organisation), LoginForm(token, username, password));
      var loggedIn := !Strings.Contains(reply.text, LoginFailureMarker);
      (c.(isLoggedIn := loggedIn), if loggedIn then Ok(()) else Err(ValueError("invalid credentials")))
  }

  /** Starting from a new client, the flag is set exactly when login
      succeeds. */
  lemma LoginFromNewClient(organisation: string, username: string, password: string,
                           loginPage: Response, server: Server, parse: Parser)
    ensures var (c, outcome) := Login(NewClient(organisation), username, password, loginPage, server, parse);
      !NewClient(organisation).isLoggedIn && (c.isLoggedIn <==> outcome.Ok?)
  {
  }

  // -------------------------------------------------------------- export

  function ExportUrl(organisation: string): string
  {
    BaseUrl + organisation + "/admin/shifts/export.csv"
  }

  const GroupSelectFilter := map["name" := "group_ids[]"]

  /** `[str(d + 1) for d in range(7)]`: the codes of the seven weekdays. */
  function WeekdayCodes(): (codes: seq<string>)
    ensures codes == ["1", "2", "3", "4", "5", "6", "7"]
  {
    seq(7, d requires 0 <= d => Decimal.IntToString(d + 1))
  }

  /** The `value` attribute of every option, in order; an option without one
      raises KeyError. */
  function OptionValues(options: seq<Tag>): (r: Result<seq<string>>)
    ensures r.Ok? <==> forall i :: 0 <= i < |options| ==> "value" in options[i].attrs
    ensures r.Ok? ==> |r.value| == |options|
    ensures r.Ok? ==> forall i :: 0 <= i < |options| ==> r.value[i] == options[i].attrs["value"]
    ensures r.Err? ==> r.error == KeyError("value")
  {
    if |options| == 0 then Ok([])
    else
      var first :- Attr(options[0], "value");
      var rest :- OptionValues(options[1..]);
      Ok([first] + rest)
  }

  /** The values of the options of the page's `group_ids[]` select. A page
      without that select raises AttributeError, as calling `find_all` on
      `None` does. */
  function GroupIds(doc: Document): (r: Result<seq<string>>)
    ensures Find(doc, "select", GroupSelectFilter).None? ==> r.Err? && r.error.AttributeError?
    ensures forall i :: IsFirstMatch(Elements(doc), i, "select", GroupSelectFilter) ==>
      r == OptionValues(FindAll(Elements(doc)[i], "option"))
  {
    match Find(doc, "select", GroupSelectFilter)
    case None => Err(AttributeError("'NoneType' object has no attribute 'find_all'"))
    case Some(select) => OptionValues(FindAll(select, "option"))
  }

  /** Options for the two groups of the shift tests, 12079 ("Bar met ervaring") and 10736 ("Bar"). */
  const BarExperiencedOption := Element(Tag("option", map["value" := "12079"]), [])
  const BarOption := Element(Tag("option", map["value" := "10736"]), [])

  /** A group select with those two options, as on the export page. */
  const GroupSelect := Element(Tag("select", map["name" := "group_ids[]"]), [BarExperiencedOption, BarOption])

  /** The group ids are the option values in page order, one per option. */
  lemma GroupIdsExample()
    ensures GroupIds([Element(Tag("html", map[]), [GroupSelect])]) == Ok(["12079", "10736"])
  {
    var doc := [Element(Tag("html", map[]), [GroupSelect])];
    GroupSelectIsFirst(doc);
    GroupSelectOptions();
    OptionPairValues();
  }

  lemma GroupSelectIsFirst(doc: Document)
    requires doc == [Element(Tag("html", map[]), [GroupSelect])]
    ensures IsFirstMatch(Elements(doc), 1, "select", GroupSelectFilter) && Elements(doc)[1] == GroupSelect
  {
    assert Elements(doc) == [doc[0]] + Elements([GroupSelect]) + Elements([]);
    assert Elements([GroupSelect])[0] == GroupSelect;
    assert GroupSelect.tag.attrs["name"] == "group_ids[]";
  }

  lemma GroupSelectOptions()
    ensures FindAll(GroupSelect, "option") == [BarExperiencedOption.tag, BarOption.tag]
  {
    assert GroupSelect.children == [BarExperiencedOption] + [BarOption];
    FindAllSplit(GroupSelect.tag, [BarExperiencedOption], [BarOption], "option");
    FindAllChild(GroupSelect.tag, BarExperiencedOption, "option");
    FindAllChild(GroupSelect.tag, BarOption, "option");
  }

  lemma OptionPairValues()
    ensures OptionValues([BarExperiencedOption.tag, BarOption.tag]) == Ok(["12079", "10736"])
  {
    var options := [BarExperiencedOption.tag, BarOption.tag];
    assert "value" in options[0].attrs && options[0].attrs["value"] == "12079";
    assert "value" in options[1].attrs && options[1].attrs["value"] == "10736";
    var r := OptionValues(options);
    assert r.Ok? && |r.value| == 2;
    assert r.value[0] == "12079" && r.value[1] == "10736";
    assert r.value == ["12079", "10736"];
  }

  /** The export request: token, a 52-week window starting today in
      `YYYY-MM-DD` form, all weekdays and every group of the page. */
  function ExportForm(today: Date, doc: Document, parse: Parser): (r: Result<Form>)
    requires ValidDate(today)
    ensures r.Ok? <==>
      Ordinal(today) + 7 * ExportWeeks <= Ordinal(MaxDate) && PageToken(doc).Ok? && GroupIds(doc).Ok?
    ensures r.Ok? ==> |r.value| == 6
    ensures r.Ok? ==>
      && Lookup(r.value, CsrfTokenName) == Some(Single(PageToken(doc).value))
      && Lookup(r.value, "from_date") == Some(Single(FormatIso(today)))
      && AddDays(today, 364).Ok?
      && Lookup(r.value, "to_date") == Some(Single(FormatIso(AddDays(today, 364).value)))
      && Lookup(r.value, "days[]") == Some(Many(["1", "2", "3", "4", "5", "6", "7"]))
      && Lookup(r.value, "group_ids[]") == Some(Many(GroupIds(doc).value))
      && Lookup(r.value, "button") == Some(Single(""))
  {
    var last :- AddDays(today, 7 * ExportWeeks);
    var token :- GetCsrf(None, Some(doc), parse);
    var groups :- GroupIds(doc);
    var form := ExportFields(token, FormatIso(today), FormatIso(last), groups);
    ExportFieldsLookup(token, FormatIso(today), FormatIso(last), groups);
    Ok(form)
  }

  function ExportFields(token: string, from: string, to: string, groups: seq<string>): Form
  {
    [Field(CsrfTokenName, Single(token)),
     Field("from_date", Single(from)),
     Field("to_date", Single(to)),
     Field("days[]", Many(WeekdayCodes())),
     Field("group_ids[]", Many(groups)),
     Field("button", Single(""))]
  }

  lemma ExportFieldsLookup(token: string, from: string, to: string, groups: seq<string>)
    ensures var form := ExportFields(token, from, to, groups);
      && Lookup(form, CsrfTokenName) == Some(Single(token))
      && Lookup(form, "from_date") == Some(Single(from))
      && Lookup(form, "to_date") == Some(Single(to))
      && Lookup(form, "days[]") == Some(Many(["1", "2", "3", "4", "5", "6", "7"]))
      && Lookup(form, "group_ids[]") == Some(Many(groups))
      && Lookup(form, "button") == Some(Single(""))
  {
    var form := ExportFields(token, from, to, groups);
    var f1 := form[1..];
    var f2 := f1[1..];
    var f3 := f2[1..];
    var f4 := f3[1..];
    var f5 := f4[1..];
    assert f5 == [Field("button", Single(""))];
    assert Lookup(form, "to_date") == Lookup(f1, "to_date") == Lookup(f2, "to_date");
    assert Lookup(form, "days[]") == Lookup(f1, "days[]") == Lookup(f2, "days[]") == Lookup(f3, "days[]");
    assert Lookup(form, "group_ids[]") == Lookup(f1, "group_ids[]") == Lookup(f2, "group_ids[]")
      == Lookup(f3, "group_ids[]") == Lookup(f4, "group_ids[]");
    assert Lookup(form, "button") == Lookup(f1, "button") == Lookup(f2, "button")
      == Lookup(f3, "button") == Lookup(f4, "button") == Lookup(f5, "button");
  }

  /** The export reply is accepted only with status 200 and content type
      exactly `text/csv`; its body is then the result. */
  function AcceptExport(reply: Response): (r: Result<string>)
    ensures r.Ok? <==> reply.status == 200 && "content-type" in reply.headers
                       && reply.headers["content-type"] == "text/csv"
    ensures r.Ok? ==> r.value == reply.text
    ensures reply.status == 200 && "content-type" !in reply.headers ==> r == Err(KeyError("content-type"))
  {
    if reply.status != 200 then Err(AssertionError("Export must return a 200 response"))
    else if "content-type" !in reply.headers then Err(KeyError("content-type"))
    else if reply.headers["content-type"] != "text/csv" then Err(AssertionError("Response must be CSV"))
    else Ok(reply.text)
  }

  /** `export_shifts()` for a logged-in client: the export page must answer
      200; the export form built from it is posted, and the CSV text of an
      accepted reply is returned. */
  function ExportShifts(c: Client, today: Date, exportPage: Response, server: Server,
                        parse: Parser): (r: Result<string>)
    requires c.isLoggedIn
    requires ValidDate(today)
    ensures exportPage.status != 200 ==> r.Err? && r.error.AssertionError?
    ensures exportPage.status == 200 && ExportForm(today, parse(exportPage.text), parse).Err? ==>
      r == Err(ExportForm(today, parse(exportPage.text), parse).error)
    ensures exportPage.status == 200 && ExportForm(today, parse(exportPage.text), parse).Ok? ==>
      r == AcceptExport(server(ExportUrl(c.organisation), ExportForm(today, parse(exportPage.text), parse).value))
    ensures r.Ok? ==>
      && exportPage.status == 200
      && ExportForm(today, parse(exportPage.text), parse).Ok?
      && var reply := server(ExportUrl(c.organisation), ExportForm(today, parse(exportPage.text), parse).value);
         && reply.status == 200
         && "content-type" in reply.headers && reply.headers["content-type"] == "text/csv"
         && r.value == reply.text
  {
    if exportPage.status != 200 then Err(AssertionError(""))
    else
      match ExportForm(today, parse(exportPage.text), parse)
      case Err(e) => Err(e)
      case Ok(form) => AcceptExport(server(ExportUrl(c.organisation), form))
  }
}

=== FILE: shifts.dfy ===
/** Shift records of the roster's CSV export.

    A row arrives already split by the CSV reader, as a map from column
    name to cell text; tokenising and quoting are not modelled. */
module Shifts {

  import opened Wrappers
  import opened Calendar
  import Decimal

  /** A scheduled slot of a group, with the volunteer assigned to it if any. */
  datatype Shift = Shift(
    shiftId: int,
    groupId: int,
    groupName: string,
    date: Date,
    startTime: Time,
    endTime: Time,
    userId: Option<string>,
    userName: Option<string>,
    userEmail: Option<string>,
    comments: string)

  /** One CSV row, keyed by the Dutch column names of the export header. */
  type Record = map<string, string>

  /** The columns `from_record` reads, in the order it reads them. */
  const ConsumedColumns := ["Dienst_id", "Groep_id", "Groep_naam", "Datum", "Starttijd",
                            "Eindtijd", "Gebruiker_id", "Naam", "Email", "Opmerkingen"]

  /** `record[name]`, which raises KeyError for a missing column. */
  function Column(record: Record, name: string): (r: Result<string>)
    ensures r.Ok? <==> name in record
    ensures r.Ok? ==> r.value == record[name]
    ensures r.Err? ==> r.error == KeyError(name)
  {
    if name in record then Ok(record[name]) else Err(KeyError(name))
  }

  /** `text if text else None`: the empty string means absent. */
  function Optional(text: string): (r: Option<string>)
    ensures r.None? <==> text == ""
    ensures r.Some? ==> r.value == text
  {
    if text != "" then Some(text) else None
  }

  /** `int(record[name])`. */
  function IntColumn(record: Record, name: string): (r: Result<int>)
    ensures r.Ok? <==> name in record && Decimal.ParseInt(record[name]).Ok?
    ensures r.Ok? ==> Decimal.ParseInt(record[name]) == Ok(r.value)
    ensures name !in record ==> r == Err(KeyError(name))
  {
    var text :- Column(record, name);
    Decimal.ParseInt(text)
  }

  /** `strptime(record[name], "%d-%m-%Y").date()`. */
  function DateColumn(record: Record, name: string): (r: Result<Date>)
    ensures r.Ok? <==> name in record && ParseDmy(record[name]).Ok?
    ensures r.Ok? ==> ParseDmy(record[name]) == Ok(r.value) && ValidDate(r.value)
  {
    var text :- Column(record, name);
    ParseDmy(text)
  }

  /** `strptime(record[name], "%H:%M").time()`. */
  function TimeColumn(record: Record, name: string): (r: Result<Time>)
    ensures r.Ok? <==> name in record && ParseHm(record[name]).Ok?
    ensures r.Ok? ==> ParseHm(record[name]) == Ok(r.value) && ValidTime(r.value)
  {
    var text :- Column(record, name);
    ParseHm(text)
  }

  /** `record[name] if record[name] else None`. */
  function OptionalColumn(record: Record, name: string): (r: Result<Option<string>>)
    ensures r.Ok? <==> name in record
    ensures r.Ok? ==> r.value == Optional(record[name])
  {
    var text :- Column(record, name);
    Ok(Optional(text))
  }

  // `from_record` reads its columns in three groups; each reports the first
  // column it fails on.

  /** `Dienst_id` and `Groep_id` as integers, then `Groep_naam`. */
  function GroupColumns(record: Record): (r: Result<(int, int, string)>)
    ensures r.Ok? <==> && "Dienst_id" in record && Decimal.ParseInt(record["Dienst_id"]).Ok?
                       && "Groep_id" in record && Decimal.ParseInt(record["Groep_id"]).Ok?
                       && "Groep_naam" in record
    ensures r.Ok? ==> && Decimal.ParseInt(record["Dienst_id"]) == Ok(r.value.0)
                      && Decimal.ParseInt(record["Groep_id"]) == Ok(r.value.1)
                      && r.value.2 == record["Groep_naam"]
    ensures "Dienst_id" !in record ==> r == Err(KeyError("Dienst_id"))
  {
    var shiftId :- IntColumn(record, "Dienst_id");
    var groupId :- IntColumn(record, "Groep_id");
    var groupName :- Column(record, "Groep_naam");
    Ok((shiftId, groupId, groupName))
  }

  /** `Datum` as a date, `Starttijd` and `Eindtijd` as times. */
  function SlotColumns(record: Record): (r: Result<(Date, Time, Time)>)
    ensures r.Ok? <==> && "Datum" in record && ParseDmy(record["Datum"]).Ok?
                       && "Starttijd" in record && ParseHm(record["Starttijd"]).Ok?
                       && "Eindtijd" in record && ParseHm(record["Eindtijd"]).Ok?
    ensures r.Ok? ==> && ParseDmy(record["Datum"]) == Ok(r.value.0)
                      && ParseHm(record["Starttijd"]) == Ok(r.value.1)
                      && ParseHm(record["Eindtijd"]) == Ok(r.value.2)
  {
    var date :- DateColumn(record, "Datum");
    var startTime :- TimeColumn(record, "Starttijd");
    var endTime :- TimeColumn(record, "Eindtijd");
    Ok((date, startTime, endTime))
  }

  /** The three user columns, empty meaning absent, then `Opmerkingen`. */
  function UserColumns(record: Record): (r: Result<(Option<string>, Option<string>, Option<string>, string)>)
    ensures r.Ok? <==> && "Gebruiker_id" in record && "Naam" in record && "Email" in record
                       && "Opmerkingen" in record
    ensures r.Ok? ==> && r.value.0 == Optional(record["Gebruiker_id"])
                      && r.value.1 == Optional(record["Naam"])
                      && r.value.2 == Optional(record["Email"])
                      && r.value.3 == record["Opmerkingen"]
  {
    var userId :- OptionalColumn(record, "Gebruiker_id");
    var userName :- OptionalColumn(record, "Naam");
    var userEmail :- OptionalColumn(record, "Email");
    var comments :- Column(record, "Opmerkingen");
    Ok((userId, userName, userEmail, comments))
  }

  /** What every parsed shift satisfies: a calendar date, times of day, and
      no user field that is present but empty. */
  predicate WellFormed(s: Shift)
  {
    && ValidDate(s.date)
    && ValidTime(s.startTime)
    && ValidTime(s.endTime)
    && (s.userId.Some? ==> s.userId.value != "")
    && (s.userName.Some? ==> s.userName.value != "")
    && (s.userEmail.Some? ==> s.userEmail.value != "")
  }

  predicate HasConsumedColumns(record: Record)
  {
    && "Dienst_id" in record && "Groep_id" in record && "Groep_naam" in record
    && "Datum" in record && "Starttijd" in record && "Eindtijd" in record
    && "Gebruiker_id" in record && "Naam" in record && "Email" in record
    && "Opmerkingen" in record
  }

  /** Every consumed column is present and holds text of the right form. */
  predicate Parsable(record: Record)
  {
    && HasConsumedColumns(record)
    && Decimal.ParseInt(record["Dienst_id"]).Ok?
    && Decimal.ParseInt(record["Groep_id"]).Ok?
    && ParseDmy(record["Datum"]).Ok?
    && ParseHm(record["Starttijd"]).Ok?
    && ParseHm(record["Eindtijd"]).Ok?
  }

  /** `Shift.from_record(record)`: the ids are read as integers, the date as
      day-month-year, the times as hour:minute; empty user fields become
      absent; group name and comments are copied. Columns are read in the
      order of `ConsumedColumns` and the first failure is raised. */
  function FromRecord(record: Record): (r: Result<Shift>)
    ensures r.Ok? ==> WellFormed(r.value)
  {
    var group :- GroupColumns(record);
    var slot :- SlotColumns(record);
    var user :- UserColumns(record);
    Ok(Shift(group.0, group.1, group.2, slot.0, slot.1, slot.2, user.0, user.1, user.2, user.3))
  }

  /** What `from_record` makes of each consumed column: a shift exactly when
      every column is present and parses, with each field read from its
      column; a missing `Dienst_id` is the first thing reported. */
  lemma FromRecordFields(record: Record)
    ensures FromRecord(record).Ok? <==> Parsable(record)
    ensures FromRecord(record).Ok? ==>
      var shift := FromRecord(record).value;
      && Decimal.ParseInt(record["Dienst_id"]) == Ok(shift.shiftId)
      && Decimal.ParseInt(record["Groep_id"]) == Ok(shift.groupId)
      && ParseDmy(record["Datum"]) == Ok(shift.date)
      && ParseHm(record["Starttijd"]) == Ok(shift.startTime)
      && ParseHm(record["Eindtijd"]) == Ok(shift.endTime)
      && shift.groupName == record["Groep_naam"]
      && shift.comments == record["Opmerkingen"]
      && (shift.userId.None? <==> record["Gebruiker_id"] == "")
      && (shift.userId.Some? ==> shift.userId.value == record["Gebruiker_id"])
      && (shift.userName.None? <==> record["Naam"] == "")
      && (shift.userName.Some? ==> shift.userName.value == record["Naam"])
      && (shift.userEmail.None? <==> record["Email"] == "")
      && (shift.userEmail.Some? ==> shift.userEmail.value == record["Email"])
    ensures "Dienst_id" !in record ==> FromRecord(record) == Err(KeyError("Dienst_id"))
  {
    var group, slot, user := GroupColumns(record), SlotColumns(record), UserColumns(record);
    if group.Ok? && slot.Ok? && user.Ok? {
      assert FromRecord(record) == Ok(Shift(group.value.0, group.value.1, group.value.2,
        slot.value.0, slot.value.1, slot.value.2, user.value.0, user.value.1, user.value.2, user.value.3));
    } else {
      assert FromRecord(record).Err?;
    }
  }

  /** Columns `from_record` does not read (`Dag`, `Tijdsduur`, `Telefoon`,
      ...) have no effect on the result. */
  lemma FromRecordIgnoresOtherColumns(record: Record, column: string, text: string)
    requires column !in ConsumedColumns
    ensures FromRecord(record[column := text]) == FromRecord(record)
  {
    SameConsumedColumns(record[column := text], record);
  }

  /** The row the export writes for a shift: ids in decimal, the date as
      `dd-mm-yyyy`, times as `HH:MM`, an absent user field as "". */
  function ToRecord(s: Shift): Record
    requires WellFormed(s)
  {
    map[
      "Dienst_id" := Decimal.IntToString(s.shiftId),
      "Groep_id" := Decimal.IntToString(s.groupId),
      "Groep_naam" := s.groupName,
      "Datum" := FormatDmy(s.date),
      "Starttijd" := FormatHm(s.startTime),
      "Eindtijd" := FormatHm(s.endTime),
      "Gebruiker_id" := if s.userId.Some? then s.userId.value else "",
      "Naam" := if s.userName.Some? then s.userName.value else "",
      "Email" := if s.userEmail.Some? then s.userEmail.value else "",
      "Opmerkingen" := s.comments]
  }

  lemma ToRecordColumns(s: Shift)
    requires WellFormed(s)
    ensures var record := ToRecord(s);
      && HasConsumedColumns(record)
      && record["Dienst_id"] == Decimal.IntToString(s.shiftId)
      && record["Groep_id"] == Decimal.IntToString(s.groupId)
      && record["Groep_naam"] == s.groupName
      && record["Datum"] == FormatDmy(s.date)
      && record["Starttijd"] == FormatHm(s.startTime)
      && record["Eindtijd"] == FormatHm(s.endTime)
      && Optional(record["Gebruiker_id"]) == s.userId
      && Optional(record["Naam"]) == s.userName
      && Optional(record["Email"]) == s.userEmail
      && record["Opmerkingen"] == s.comments
  {
  }

  /** Every well-formed shift is recovered from the row the export writes
      for it. */
  lemma FromRecordRoundTrip(s: Shift)
    requires WellFormed(s)
    ensures FromRecord(ToRecord(s)) == Ok(s)
  {
    var record := ToRecord(s);
    ToRecordColumns(s);
    Decimal.IntRoundTrip(s.shiftId);
    Decimal.IntRoundTrip(s.groupId);
    ParseDmyRoundTrip(s.date);
    ParseHmRoundTrip(s.startTime);
    ParseHmRoundTrip(s.endTime);
    FromRecordFields(record);
  }

  /** Any row that agrees with the rendered row of a shift on the consumed
      columns, whatever else it holds, parses back to that shift. */
  lemma FromRecordOfRendered(record: Record, s: Shift)
    requires WellFormed(s)
    requires forall c :: c in ConsumedColumns ==> c in record && record[c] == ToRecord(s)[c]
    ensures FromRecord(record) == Ok(s)
  {
    ToRecordColumns(s);
    SameConsumedColumns(record, ToRecord(s));
    FromRecordRoundTrip(s);
  }

  /** Two rows that agree on the consumed columns parse alike. */
  lemma SameConsumedColumns(a: Record, b: Record)
    requires forall c :: c in ConsumedColumns ==> (c in a <==> c in b) && (c in a ==> a[c] == b[c])
    ensures FromRecord(a) == FromRecord(b)
  {
    SameGroupColumns(a, b);
    SameSlotColumns(a, b);
    SameUserColumns(a, b);
  }

  lemma SameGroupColumns(a: Record, b: Record)
    requires forall c :: c in ConsumedColumns ==> (c in a <==> c in b) && (c in a ==> a[c] == b[c])
    ensures GroupColumns(a) == GroupColumns(b)
  {
    assert Column(a, "Dienst_id") == Column(b, "Dienst_id");
    assert Column(a, "Groep_id") == Column(b, "Groep_id");
    assert Column(a, "Groep_naam") == Column(b, "Groep_naam");
    assert IntColumn(a, "Dienst_id") == IntColumn(b, "Dienst_id");
    assert IntColumn(a, "Groep_id") == IntColumn(b, "Groep_id");
  }

  lemma SameSlotColumns(a: Record, b: Record)
    requires forall c :: c in ConsumedColumns ==> (c in a <==> c in b) && (c in a ==> a[c] == b[c])
    ensures SlotColumns(a) == SlotColumns(b)
  {
    assert Column(a, "Datum") == Column(b, "Datum");
    assert Column(a, "Starttijd") == Column(b, "Starttijd");
    assert Column(a, "Eindtijd") == Column(b, "Eindtijd");
    assert DateColumn(a, "Datum") == DateColumn(b, "Datum");
    assert TimeColumn(a, "Starttijd") == TimeColumn(b, "Starttijd");
    assert TimeColumn(a, "Eindtijd") == TimeColumn(b, "Eindtijd");
  }

  lemma SameUserColumns(a: Record, b: Record)
    requires forall c :: c in ConsumedColumns ==> (c in a <==> c in b) && (c in a ==> a[c] == b[c])
    ensures UserColumns(a) == UserColumns(b)
  {
    assert Column(a, "Gebruiker_id") == Column(b, "Gebruiker_id");
    assert Column(a, "Naam") == Column(b, "Naam");
    assert Column(a, "Email") == Column(b, "Email");
    assert Column(a, "Opmerkingen") == Column(b, "Opmerkingen");
    assert OptionalColumn(a, "Gebruiker_id") == OptionalColumn(b, "Gebruiker_id");
    assert OptionalColumn(a, "Naam") == OptionalColumn(b, "Naam");
    assert OptionalColumn(a, "Email") == OptionalColumn(b, "Email");
  }

  /** The covered shift of the parsing tests: every consumed column is read,
      the weekday, duration and other extra columns are not. */
  lemma CoveredShiftExample()
    ensures FromRecord(map[
      "Dienst_id" := "2891448", "Groep_id" := "12079", "Groep_naam" := "Bar met ervaring",
      "Datum" := "13-01-2024", "Dag" := " Zaterdag", "Starttijd" := "15:30", "Eindtijd" := "18:30",
      "Tijdsduur" := "03:00", "Gebruiker_id" := "PRS2921", "Naam" := "Alice Alice",
      "Email" := "alice@example.com", "Telefoon" := "", "Locatie_id" := "", "Locatie_naam" := "",
      "Afwezig" := "", "Geannuleerd" := "", "Starred" := "", "Opmerkingen" := "Nieuwjaarsborrel"])
      == Ok(Shift(2891448, 12079, "Bar met ervaring", Date(2024, 1, 13), Time(15, 30), Time(18, 30),
                  Some("PRS2921"), Some("Alice Alice"), Some("alice@example.com"), "Nieuwjaarsborrel"))
  {
    var s := Shift(2891448, 12079, "Bar met ervaring", Date(2024, 1, 13), Time(15, 30), Time(18, 30),
                   Some("PRS2921"), Some("Alice Alice"), Some("alice@example.com"), "Nieuwjaarsborrel");
    CoveredShiftColumns();
    FromRecordOfRendered(map[
      "Dienst_id" := "2891448", "Groep_id" := "12079", "Groep_naam" := "Bar met ervaring",
      "Datum" := "13-01-2024", "Dag" := " Zaterdag", "Starttijd" := "15:30", "Eindtijd" := "18:30",
      "Tijdsduur" := "03:00", "Gebruiker_id" := "PRS2921", "Naam" := "Alice Alice",
      "Email" := "alice@example.com", "Telefoon" := "", "Locatie_id" := "", "Locatie_naam" := "",
      "Afwezig" := "", "Geannuleerd" := "", "Starred" := "", "Opmerkingen" := "Nieuwjaarsborrel"], s);
  }

  /** The uncovered shift of the parsing tests: empty user columns are
      absent users. */
  lemma UncoveredShiftExample()
    ensures FromRecord(map[
      "Dienst_id" := "2926209", "Groep_id" := "10736", "Groep_naam" := "Bar",
      "Datum" := "13-01-2024", "Dag" := " Zaterdag", "Starttijd" := "16:00", "Eindtijd" := "18:00",
      "Tijdsduur" := "02:00", "Gebruiker_id" := "", "Naam" := "", "Email" := "", "Telefoon" := "",
      "Locatie_id" := "", "Locatie_naam" := "", "Afwezig" := "", "Geannuleerd" := "", "Starred" := "",
      "Opmerkingen" := ""])
      == Ok(Shift(2926209, 10736, "Bar", Date(2024, 1, 13), Time(16, 0), Time(18, 0), None, None, None, ""))
  {
    var s := Shift(2926209, 10736, "Bar", Date(2024, 1, 13), Time(16, 0), Time(18, 0), None, None, None, "");
    UncoveredShiftColumns();
    FromRecordOfRendered(map[
      "Dienst_id" := "2926209", "Groep_id" := "10736", "Groep_naam" := "Bar",
      "Datum" := "13-01-2024", "Dag" := " Zaterdag", "Starttijd" := "16:00", "Eindtijd" := "18:00",
      "Tijdsduur" := "02:00", "Gebruiker_id" := "", "Naam" := "", "Email" := "", "Telefoon" := "",
      "Locatie_id" := "", "Locatie_naam" := "", "Afwezig" := "", "Geannuleerd" := "", "Starred" := "",
      "Opmerkingen" := ""], s);
  }

  // The rows the export writes for the two test shifts; the id steps each
  // render one more digit.

  lemma CoveredShiftColumns()
    ensures var s := Shift(2891448, 12079, "Bar met ervaring", Date(2024, 1, 13), Time(15, 30), Time(18, 30),
                           Some("PRS2921"), Some("Alice Alice"), Some("alice@example.com"), "Nieuwjaarsborrel");
      && WellFormed(s)
      && ToRecord(s) == map[
        "Dienst_id" := "2891448", "Groep_id" := "12079", "Groep_naam" := "Bar met ervaring",
        "Datum" := "13-01-2024", "Starttijd" := "15:30", "Eindtijd" := "18:30",
        "Gebruiker_id" := "PRS2921", "Naam" := "Alice Alice", "Email" := "alice@example.com",
        "Opmerkingen" := "Nieuwjaarsborrel"]
  {
    CoveredShiftIds();
    CoveredShiftSlot();
  }

  lemma CoveredShiftIds()
    ensures Decimal.IntToString(2891448) == "2891448"
    ensures Decimal.IntToString(12079) == "12079"
  {
    assert Decimal.NatToString(28) == "28";
    assert Decimal.NatToString(289) == "289";
    assert Decimal.NatToString(2891) == "2891";
    assert Decimal.NatToString(28914) == "28914";
    assert Decimal.NatToString(289144) == "289144";
    assert Decimal.NatToString(2891448) == "2891448";
  }

  lemma CoveredShiftSlot()
    ensures FormatDmy(Date(2024, 1, 13)) == "13-01-2024"
    ensures FormatHm(Time(15, 30)) == "15:30"
    ensures FormatHm(Time(18, 30)) == "18:30"
  {
    assert FormatDmy(Date(2024, 1, 13)) == "13-01-2024";
    assert FormatHm(Time(15, 30)) == "15:30";
  }

  lemma UncoveredShiftColumns()
    ensures var s := Shift(2926209, 10736, "Bar", Date(2024, 1, 13), Time(16, 0), Time(18, 0), None, None, None, "");
      && WellFormed(s)
      && ToRecord(s) == map[
        "Dienst_id" := "2926209", "Groep_id" := "10736", "Groep_naam" := "Bar",
        "Datum" := "13-01-2024", "Starttijd" := "16:00", "Eindtijd" := "18:00",
        "Gebruiker_id" := "", "Naam" := "", "Email" := "", "Opmerkingen" := ""]
  {
    UncoveredShiftIds();
    UncoveredShiftSlot();
  }

  lemma UncoveredShiftIds()
    ensures Decimal.IntToString(2926209) == "2926209"
    ensures Decimal.IntToString(10736) == "10736"
  {
    assert Decimal.NatToString(29) == "29";
    assert Decimal.NatToString(292) == "292";
    assert Decimal.NatToString(2926) == "2926";
    assert Decimal.NatToString(29262) == "29262";
    assert Decimal.NatToString(292620) == "292620";
    assert Decimal.NatToString(2926209) == "2926209";
  }

  lemma UncoveredShiftSlot()
    ensures FormatDmy(Date(2024, 1, 13)) == "13-01-2024"
    ensures FormatHm(Time(16, 0)) == "16:00"
    ensures FormatHm(Time(18, 0)) == "18:00"
  {
    assert FormatDmy(Date(2024, 1, 13)) == "13-01-2024";
    assert FormatHm(Time(16, 0)) == "16:00";
  }

  /** `rows[k]` is the first row that does not parse. */
  predicate FirstFailure(rows: seq<Record>, k: int)
  {
    0 <= k < |rows| && FromRecord(rows[k]).Err? && forall i :: 0 <= i < k ==> FromRecord(rows[i]).Ok?
  }

  /** The shifts of the first rows, extended by the next row's shift, are
      the shifts of one more row. */
  lemma ParsedPrefixGrows(rows: seq<Record>, shifts: seq<Shift>, next: Shift)
    requires |shifts| < |rows|
    requires forall j :: 0 <= j < |shifts| ==> FromRecord(rows[j]) == Ok(shifts[j])
    requires FromRecord(rows[|shifts|]) == Ok(next)
    ensures forall j :: 0 <= j <= |shifts| ==> FromRecord(rows[j]) == Ok((shifts + [next])[j])
  {
  }

  /** `parse_csv`: one shift per data row, in row order; the first row that
      does not parse makes the whole call fail with that row's error. */
  method ParseCsv(rows: seq<Record>) returns (r: Result<seq<Shift>>)
    ensures r.Ok? <==> forall i :: 0 <= i < |rows| ==> FromRecord(rows[i]).Ok?
    ensures r.Ok? ==> |r.value| == |rows|
    ensures r.Ok? ==> forall i :: 0 <= i < |rows| ==> FromRecord(rows[i]) == Ok(r.value[i])
    ensures r.Err? ==> exists k :: FirstFailure(rows, k) && FromRecord(rows[k]) == Err(r.error)
  {
    var shifts: seq<Shift> := [];
    for i := 0 to |rows|
      invariant |shifts| == i
      invariant forall j :: 0 <= j < i ==> FromRecord(rows[j]) == Ok(shifts[j])
    {
      var shift := FromRecord(rows[i]);
      if shift.Err? {
        assert FirstFailure(rows, i);
        return Err(shift.error);
      }
      ParsedPrefixGrows(rows, shifts, shift.value);
      shifts := shifts + [shift.value];
    }
    return Ok(shifts);
  }
}

=== FILE: strings.dfy ===
/** Text helpers: Python's `pat in text` on `str`, the stripping `int()` does
    around a literal, and cutting text at a character. */
module Strings {

  import opened Wrappers

  /** `pat` occurs in `text` starting at index `i`. */
  predicate OccursAt(text: string, pat: string, i: int)
  {
    0 <= i && i + |pat| <= |text| && text[i..i + |pat|] == pat
  }

  /** Python's `pat in text`: true iff some slice of `text` equals `pat`
      (so the empty pattern occurs in every text). */
  function Contains(text: string, pat: string): (b: bool)
    ensures b <==> exists i :: OccursAt(text, pat, i)
    decreases |text|
  {
    if |pat| > |text| then
      false
    else if text[..|pat|] == pat then
      assert OccursAt(text, pat, 0);
      true
    else
      OccursPastFirst(text, pat);
      Contains(text[1..], pat)
  }

  /** When `pat` is not at the start of `text`, it occurs in `text` exactly
      when it occurs in `text[1..]`. */
  lemma OccursPastFirst(text: string, pat: string)
    requires |text| > 0 && !OccursAt(text, pat, 0)
    ensures (exists i :: OccursAt(text, pat, i)) <==> (exists i :: OccursAt(text[1..], pat, i))
  {
    if exists i :: OccursAt(text, pat, i) {
      var i :| OccursAt(text, pat, i);
      assert i >= 1;
      SliceOfTail(text, i - 1, i - 1 + |pat|);
      assert OccursAt(text[1..], pat, i - 1);
    }
    if exists i :: OccursAt(text[1..], pat, i) {
      var i :| OccursAt(text[1..], pat, i);
      SliceOfTail(text, i, i + |pat|);
      assert OccursAt(text, pat, i + 1);
    }
  }

  lemma SliceOfTail(text: string, i: int, j: int)
    requires 0 <= i <= j < |text|
    ensures text[1..][i..j] == text[i + 1..j + 1]
  {
    assert forall k :: 0 <= k < j - i ==> text[1..][i..j][k] == text[i + 1 + k];
  }

  /** The whitespace Python's `int()` skips around a literal, in the Latin-1
      range: the ASCII whitespace (tab, line feed, vertical tab, form feed,
      carriage return and space), and next line and no-break space, which
      it first maps to spaces. The information separators U+001C to U+001F
      count for `str.isspace()` but are below U+007F, so `int()` keeps them
      and rejects the text. */
  predicate IsSpace(c: char)
  {
    c == ' ' || ('\t' <= c <= '\r') || c == '\U{85}' || c == '\U{A0}'
  }

  /** `s[i..j]` is `s` with only whitespace removed from either end. */
  predicate StrippedAt(s: string, i: int, j: int)
  {
    && 0 <= i <= j <= |s|
    && (forall k :: 0 <= k < i ==> IsSpace(s[k]))
    && (forall k :: j <= k < |s| ==> IsSpace(s[k]))
  }

  /** `s` without the leading and trailing whitespace `int()` skips. */
  function Strip(s: string): (t: string)
    ensures exists i, j :: StrippedAt(s, i, j) && t == s[i..j]
    ensures |t| > 0 ==> !IsSpace(t[0]) && !IsSpace(t[|t| - 1])
  {
    var i := LeadingSpaces(s);
    var j := |s| - TrailingSpaces(s[i..]);
    assert s[i..][..j - i] == s[i..j];
    s[i..j]
  }

  /** The number of whitespace characters `s` starts with. */
  function LeadingSpaces(s: string): (n: nat)
    ensures n <= |s|
    ensures forall k :: 0 <= k < n ==> IsSpace(s[k])
    ensures n < |s| ==> !IsSpace(s[n])
  {
    if |s| > 0 && IsSpace(s[0]) then 1 + LeadingSpaces(s[1..]) else 0
  }

  /** The number of whitespace characters `s` ends with. */
  function TrailingSpaces(s: string): (n: nat)
    ensures n <= |s|
    ensures forall k :: |s| - n <= k < |s| ==> IsSpace(s[k])
    ensures n < |s| ==> !IsSpace(s[|s| - n - 1])
  {
    if |s| > 0 && IsSpace(s[|s| - 1]) then 1 + TrailingSpaces(s[..|s| - 1]) else 0
  }

  /** A string with non-blank ends is its own `Strip`. */
  lemma StripUnpadded(s: string)
    requires |s| > 0 && !IsSpace(s[0]) && !IsSpace(s[|s| - 1])
    ensures Strip(s) == s
  {
    assert LeadingSpaces(s) == 0;
    assert s[0..] == s;
    assert TrailingSpaces(s) == 0;
  }

  /** Every character of `s` is whitespace. */
  predicate AllSpace(s: string)
  {
    forall k :: 0 <= k < |s| ==> IsSpace(s[k])
  }

  /** Whitespace around a core with non-blank ends is exactly what
      `Strip` removes. */
  lemma StripPadded(lead: string, core: string, trail: string)
    requires AllSpace(lead) && AllSpace(trail)
    requires |core| > 0 && !IsSpace(core[0]) && !IsSpace(core[|core| - 1])
    ensures Strip(lead + core + trail) == core
  {
    var s := lead + core + trail;
    var i := LeadingSpaces(s);
    assert s[|lead|] == core[0];
    assert i == |lead|;
    var u := s[i..];
    assert u == core + trail;
    var n := TrailingSpaces(u);
    assert u[|core| - 1] == core[|core| - 1];
    assert n == |trail|;
    assert s[i..|s| - n] == core;
  }

  /** Every text is its `Strip` surrounded by whitespace. */
  lemma StripSplit(s: string) returns (lead: string, trail: string)
    ensures AllSpace(lead) && AllSpace(trail)
    ensures s == lead + Strip(s) + trail
  {
    var t := Strip(s);
    var i, j :| StrippedAt(s, i, j) && t == s[i..j];
    lead, trail := s[..i], s[j..];
    assert s == lead + s[i..j] + trail;
    assert forall k :: 0 <= k < |lead| ==> lead[k] == s[k];
    assert forall k :: 0 <= k < |trail| ==> trail[k] == s[j + k];
  }

  /** The index of the first `c` in `s`, if any (Python's `s.find(c)`). */
  function IndexOf(s: string, c: char): (r: Option<nat>)
    ensures r.Some? ==> r.value < |s| && s[r.value] == c && c !in s[..r.value]
    ensures r.None? <==> c !in s
  {
    if |s| == 0 then None
    else if s[0] == c then Some(0)
    else match IndexOf(s[1..], c)
      case None => None
      case Some(i) =>
        assert s[..i + 1] == [s[0]] + s[1..][..i];
        Some(i + 1)
  }

  /** The first occurrence is the only index `IndexOf` can report. */
  lemma IndexOfFirst(s: string, c: char, i: nat)
    requires i < |s| && s[i] == c && c !in s[..i]
    ensures IndexOf(s, c) == Some(i)
  {
    var r := IndexOf(s, c);
    assert c in s;
    assert forall k :: 0 <= k < i ==> s[..i][k] == s[k];
    assert forall k :: 0 <= k < r.value ==> s[..r.value][k] == s[k];
  }

  /** `s` cut at the first `c`: the text before it and the text after it. */
  function SplitFirst(s: string, c: char): (r: Option<(string, string)>)
    ensures r.None? <==> c !in s
    ensures r.Some? ==> s == r.value.0 + [c] + r.value.1 && c !in r.value.0
  {
    match IndexOf(s, c)
    case None => None
    case Some(i) =>
      assert s == s[..i] + [c] + s[i + 1..];
      Some((s[..i], s[i + 1..]))
  }

  /** Text free of `c`, then `c`, then anything, is cut right after that
      text. */
  lemma SplitFirstAt(a: string, c: char, b: string)
    requires c !in a
    ensures SplitFirst(a + [c] + b, c) == Some((a, b))
  {
    var s := a + [c] + b;
    assert s[..|a|] == a;
    IndexOfFirst(s, c, |a|);
    assert s[|a| + 1..] == b;
  }
}

=== FILE: users.dfy ===
/** People of the external registration system's spreadsheet export.

    The workbook is given as its active sheet: a sequence of rows, each a
    sequence of cells, where a cell is absent (`None`) or holds text.
    Loading the workbook is not modelled. */
module Users {

  import opened Wrappers

  /** A spreadsheet cell's value: `None` or text. */
  type Cell = Option<string>

  /** A person of the roster. The id is taken from its cell as it is, so it
      may be absent. */
  datatype Person = Person(
    id: Cell,
    firstname: string,
    preposition: string,
    surname: string,
    email: string)

  /** `Person.is_valid()`: first name, surname and email all non-empty. */
  predicate IsValid(p: Person)
  {
    p.firstname != "" && p.surname != "" && p.email != ""
  }

  /** The id and the name affix play no part in validity, and blanking any
      one of the three required fields makes a person invalid. */
  lemma IsValidFields(p: Person, id: Cell, preposition: string)
    ensures IsValid(p.(id := id, preposition := preposition)) == IsValid(p)
    ensures !IsValid(p.(firstname := "")) && !IsValid(p.(surname := "")) && !IsValid(p.(email := ""))
    ensures p.firstname != "" && p.surname != "" && p.email != "" ==> IsValid(p)
  {
  }

  /** Python truthiness of a cell: present and non-empty. */
  predicate Truthy(c: Cell)
  {
    c.Some? && c.value != ""
  }

  /** `cell or ""`. */
  function TextOr(c: Cell): (s: string)
    ensures s == "" <==> !Truthy(c)
    ensures Truthy(c) ==> s == c.value
  {
    if Truthy(c) then c.value else ""
  }

  /** The header row without its trailing blank labels:
      `while not column_names[-1]: column_names = column_names[:-1]`.
      A header with no non-blank label runs out and raises IndexError. */
  function TrimHeader(labels: seq<Cell>): (r: Result<seq<Cell>>)
    ensures r.Ok? ==> 0 < |r.value| <= |labels| && r.value == labels[..|r.value|]
    ensures r.Ok? ==> Truthy(r.value[|r.value| - 1])
    ensures r.Ok? ==> forall k :: |r.value| <= k < |labels| ==> !Truthy(labels[k])
    ensures r.Err? <==> forall k :: 0 <= k < |labels| ==> !Truthy(labels[k])
    ensures r.Err? ==> r.error == IndexError("list index out of range")
  {
    if |labels| == 0 then Err(IndexError("list index out of range"))
    else if Truthy(labels[|labels| - 1]) then Ok(labels)
    else
      TrimHeader(labels[..|labels| - 1])
  }

  /** A row whose cells are all `None` (a row of no cells included). */
  predicate IsBlankRow(row: seq<Cell>)
  {
    forall i :: 0 <= i < |row| ==> row[i].None?
  }

  function Min(a: int, b: int): int
  {
    if a < b then a else b
  }

  /** Position `i` is the last one, among those `zip` pairs, whose label is
      `key`. */
  predicate LastPairing(labels: seq<Cell>, cells: seq<Cell>, key: Cell, i: int)
  {
    && 0 <= i < Min(|labels|, |cells|)
    && labels[i] == key
    && forall j :: i < j < Min(|labels|, |cells|) ==> labels[j] != key
  }

  /** `{column: cell for column, cell in zip(labels, cells)}`: pairs stop at
      the shorter sequence, and a repeated label keeps its last cell. */
  function Zip(labels: seq<Cell>, cells: seq<Cell>): (m: map<Cell, Cell>)
    ensures forall i :: 0 <= i < Min(|labels|, |cells|) ==> labels[i] in m
    ensures forall k :: k in m ==> exists i :: LastPairing(labels, cells, k, i) && m[k] == cells[i]
  {
    var n := Min(|labels|, |cells|);
    if n == 0 then map[]
    else
      var m := Zip(labels[..n - 1], cells[..n - 1]);
      ZipStep(labels, cells, labels[..n - 1], cells[..n - 1], m);
      m[labels[n - 1] := cells[n - 1]]
  }

  /** Adding the last pair to the pairings of all the others gives the
      pairings of the whole. */
  lemma ZipStep(labels: seq<Cell>, cells: seq<Cell>, shortLabels: seq<Cell>, shortCells: seq<Cell>, m: map<Cell, Cell>)
    requires Min(|labels|, |cells|) > 0
    requires shortLabels == labels[..Min(|labels|, |cells|) - 1]
    requires shortCells == cells[..Min(|labels|, |cells|) - 1]
    requires forall i :: 0 <= i < |shortLabels| ==> shortLabels[i] in m
    requires forall k :: k in m ==> exists i :: LastPairing(shortLabels, shortCells, k, i) && m[k] == shortCells[i]
    ensures var n := Min(|labels|, |cells|);
      forall i :: 0 <= i < n ==> labels[i] in m[labels[n - 1] := cells[n - 1]]
    ensures var n := Min(|labels|, |cells|); var full := m[labels[n - 1] := cells[n - 1]];
      forall k :: k in full ==> exists i :: LastPairing(labels, cells, k, i) && full[k] == cells[i]
  {
    var n := Min(|labels|, |cells|);
    var full := m[labels[n - 1] := cells[n - 1]];
    assert Min(|shortLabels|, |shortCells|) == n - 1;
    forall i | 0 <= i < n
      ensures labels[i] in full
    {
      if i < n - 1 {
        assert shortLabels[i] == labels[i];
      }
    }
    assert LastPairing(labels, cells, labels[n - 1], n - 1);
    forall k | k in full
      ensures exists i :: LastPairing(labels, cells, k, i) && full[k] == cells[i]
    {
      if k == labels[n - 1] {
        assert LastPairing(labels, cells, k, n - 1);
      } else {
        var i :| LastPairing(shortLabels, shortCells, k, i) && m[k] == shortCells[i];
        assert shortLabels[i] == labels[i];
        forall j | i < j < n
          ensures labels[j] != k
        {
          if j < n - 1 {
            assert shortLabels[j] == labels[j];
          }
        }
        assert LastPairing(labels, cells, k, i);
      }
    }
  }

  /** `data[key]`, which raises KeyError when no cell was paired with the
      label. */
  function Get(data: map<Cell, Cell>, key: string): (r: Result<Cell>)
    ensures r.Ok? <==> Some(key) in data
    ensures r.Ok? ==> r.value == data[Some(key)]
    ensures r.Err? ==> r.error == KeyError(key)
  {
    if Some(key) in data then Ok(data[Some(key)]) else Err(KeyError(key))
  }

  /** The labels a row needs, in the order they are read. */
  const RequiredLabels := ["Gebruiker_id", "Voornaam", "Tussen", "Achternaam", "Email"]

  /** The person a non-blank row describes: the id cell as it is, the other
      four cells as text with an empty cell read as "". */
  function RowToPerson(header: seq<Cell>, row: seq<Cell>): (r: Result<Person>)
    ensures r.Err? ==> r.error.KeyError? && r.error.key in RequiredLabels
    ensures r.Err? ==> Some(r.error.key) !in Zip(header, row)
  {
    PersonOf(Zip(header, row))
  }

  /** The person the label-to-cell dictionary of one row describes. */
  function PersonOf(data: map<Cell, Cell>): (r: Result<Person>)
    ensures r.Ok? <==> forall l :: l in RequiredLabels ==> Some(l) in data
    ensures r.Err? ==> r.error.KeyError? && r.error.key in RequiredLabels && Some(r.error.key) !in data
  {
    var id :- Get(data, "Gebruiker_id");
    var firstname :- Get(data, "Voornaam");
    var preposition :- Get(data, "Tussen");
    var surname :- Get(data, "Achternaam");
    var email :- Get(data, "Email");
    Ok(Person(id, TextOr(firstname), TextOr(preposition), TextOr(surname), TextOr(email)))
  }

  /** The cell paired with `name` is `c`. */
  ghost predicate PairedCell(header: seq<Cell>, row: seq<Cell>, name: string, c: Cell)
  {
    exists i :: LastPairing(header, row, Some(name), i) && row[i] == c
  }

  /** A row yields a person exactly when every required label is paired with
      a cell; each field then comes from the last cell paired with its
      label, and an empty cell gives "". */
  lemma RowToPersonFields(header: seq<Cell>, row: seq<Cell>)
    ensures RowToPerson(header, row).Ok? <==>
      forall l :: l in RequiredLabels ==> exists i :: LastPairing(header, row, Some(l), i)
    ensures RowToPerson(header, row).Ok? ==>
      var p := RowToPerson(header, row).value;
      && PairedCell(header, row, "Gebruiker_id", p.id)
      && (exists c :: PairedCell(header, row, "Voornaam", c) && p.firstname == TextOr(c))
      && (exists c :: PairedCell(header, row, "Tussen", c) && p.preposition == TextOr(c))
      && (exists c :: PairedCell(header, row, "Achternaam", c) && p.surname == TextOr(c))
      && (exists c :: PairedCell(header, row, "Email", c) && p.email == TextOr(c))
  {
    var data := Zip(header, row);
    forall l | l in RequiredLabels
      ensures Some(l) in data <==> exists i :: LastPairing(header, row, Some(l), i)
    {
      if exists i :: LastPairing(header, row, Some(l), i) {
        var i :| LastPairing(header, row, Some(l), i);
        assert header[i] in data;
      }
    }
    if RowToPerson(header, row).Ok? {
      var p := RowToPerson(header, row).value;
      forall l | l in RequiredLabels
        ensures PairedCell(header, row, l, data[Some(l)])
      {
        var i :| LastPairing(header, row, Some(l), i) && data[Some(l)] == row[i];
      }
    }
  }

  /** Cells beyond the header play no part in the person a row gives. */
  lemma RowToPersonIgnoresExtraCells(header: seq<Cell>, row: seq<Cell>)
    requires |row| >= |header|
    ensures RowToPerson(header, row) == RowToPerson(header, row[..|header|])
  {
    ZipPrefix(header, row);
  }

  lemma {:induction false} ZipPrefix(labels: seq<Cell>, cells: seq<Cell>)
    requires |cells| >= |labels|
    ensures Zip(labels, cells) == Zip(labels, cells[..|labels|])
  {
    var n := |labels|;
    if n > 0 {
      var short := cells[..n];
      assert short[..n - 1] == cells[..n - 1];
    }
  }

  /** The non-blank rows, in order. */
  function NonBlankRows(rows: seq<seq<Cell>>): (kept: seq<seq<Cell>>)
    ensures forall r :: r in kept ==> r in rows && !IsBlankRow(r)
    ensures forall r :: r in rows && !IsBlankRow(r) ==> r in kept
  {
    if |rows| == 0 then []
    else (if IsBlankRow(rows[0]) then [] else [rows[0]]) + NonBlankRows(rows[1..])
  }

  /** Skipping blank rows distributes over concatenation, so kept rows stay
      in sheet order and a repeated row is kept as often as it occurs. */
  lemma {:induction false} NonBlankRowsAppend(a: seq<seq<Cell>>, b: seq<seq<Cell>>)
    ensures NonBlankRows(a + b) == NonBlankRows(a) + NonBlankRows(b)
  {
    if |a| == 0 {
      assert a + b == b;
    } else {
      assert (a + b)[0] == a[0] && (a + b)[1..] == a[1..] + b;
      NonBlankRowsAppend(a[1..], b);
    }
  }

  /** One row is kept exactly when it is not blank. */
  lemma NonBlankRowsSingleton(row: seq<Cell>)
    ensures NonBlankRows([row]) == if IsBlankRow(row) then [] else [row]
  {
    assert [row][1..] == [];
  }

  /** `rows[k]` is the first non-blank row that gives no person. */
  predicate FirstUnreadable(header: seq<Cell>, rows: seq<seq<Cell>>, k: int)
  {
    && 0 <= k < |rows|
    && !IsBlankRow(rows[k]) && RowToPerson(header, rows[k]).Err?
    && forall j :: 0 <= j < k ==> IsBlankRow(rows[j]) || RowToPerson(header, rows[j]).Ok?
  }

  /** The people of the data rows: blank rows are skipped, every other row
      gives one person in sheet order, and the first row that cannot be
      read makes the whole read fail with its error. */
  function PeopleOfRows(header: seq<Cell>, rows: seq<seq<Cell>>): (r: Result<seq<Person>>)
    ensures r.Ok? <==> forall row :: row in rows && !IsBlankRow(row) ==> RowToPerson(header, row).Ok?
    ensures r.Ok? ==> |r.value| == |NonBlankRows(rows)|
    ensures r.Ok? ==> forall i :: 0 <= i < |r.value| ==>
      RowToPerson(header, NonBlankRows(rows)[i]) == Ok(r.value[i])
    ensures r.Err? ==> exists row :: row in rows && !IsBlankRow(row) && RowToPerson(header, row) == Err(r.error)
  {
    if |rows| == 0 then Ok([])
    else if IsBlankRow(rows[0]) then
      assert NonBlankRows(rows) == NonBlankRows(rows[1..]);
      PeopleOfRows(header, rows[1..])
    else
      var person :- RowToPerson(header, rows[0]);
      var rest :- PeopleOfRows(header, rows[1..]);
      assert NonBlankRows(rows) == [rows[0]] + NonBlankRows(rows[1..]);
      Ok([person] + rest)
  }

  /** The error of a failed read is that of the first non-blank row that
      gives no person. */
  lemma {:induction false} PeopleOfRowsFirstError(header: seq<Cell>, rows: seq<seq<Cell>>)
    ensures PeopleOfRows(header, rows).Err? ==> exists k ::
      FirstUnreadable(header, rows, k) && RowToPerson(header, rows[k]) == Err(PeopleOfRows(header, rows).error)
  {
    var r := PeopleOfRows(header, rows);
    if r.Err? {
      if !IsBlankRow(rows[0]) && RowToPerson(header, rows[0]).Err? {
        assert FirstUnreadable(header, rows, 0);
      } else {
        PeopleOfRowsTail(header, rows);
        PeopleOfRowsFirstError(header, rows[1..]);
        var k :| FirstUnreadable(header, rows[1..], k) && RowToPerson(header, rows[1..][k]) == Err(r.error);
        FirstUnreadableShift(header, rows, k);
      }
    }
  }

  /** A failed read past a row that is blank or readable fails on the rest
      of the rows with the same error. */
  lemma PeopleOfRowsTail(header: seq<Cell>, rows: seq<seq<Cell>>)
    requires |rows| > 0 && (IsBlankRow(rows[0]) || RowToPerson(header, rows[0]).Ok?)
    requires PeopleOfRows(header, rows).Err?
    ensures PeopleOfRows(header, rows[1..]) == Err(PeopleOfRows(header, rows).error)
  {
  }

  lemma FirstUnreadableShift(header: seq<Cell>, rows: seq<seq<Cell>>, k: int)
    requires |rows| > 0 && (IsBlankRow(rows[0]) || RowToPerson(header, rows[0]).Ok?)
    requires FirstUnreadable(header, rows[1..], k)
    ensures FirstUnreadable(header, rows, k + 1) && rows[k + 1] == rows[1..][k]
  {
    assert forall j :: 1 <= j < k + 1 ==> rows[j] == rows[1..][j - 1];
  }

  /** `list(read_manegeplan_export(fn))` on the workbook's active sheet,
      given as its rows, or `None` for a workbook without an active sheet,
      which raises ValueError. The first row is the header, trimmed of
      trailing blank labels; a sheet with no rows at all ends the generator
      with RuntimeError. */
  function ReadManegeplanExport(active: Option<seq<seq<Cell>>>): (r: Result<seq<Person>>)
    ensures active.None? ==> r == Err(ValueError("workbook has no active sheet"))
    ensures active == Some([]) ==> r.Err? && r.error.RuntimeError?
    ensures active.Some? && |active.value| > 0 && TrimHeader(active.value[0]).Err? ==>
      r == Err(IndexError("list index out of range"))
    ensures active.Some? && |active.value| > 0 && TrimHeader(active.value[0]).Ok? ==>
      r == PeopleOfRows(TrimHeader(active.value[0]).value, active.value[1..])
    ensures r.Ok? ==> active.Some? && |active.value| > 0 && TrimHeader(active.value[0]).Ok?
  {
    if active.None? then Err(ValueError("workbook has no active sheet"))
    else
      var sheet := active.value;
      if |sheet| == 0 then Err(RuntimeError("generator raised StopIteration"))
      else
        var header :- TrimHeader(sheet[0]);
        PeopleOfRows(header, sheet[1..])
  }
}

=== FILE: wrappers.dfy ===
/** Failure-compatible wrappers shared by every module of the model.

    The modelled code is Python and signals failure by raising an exception;
    a `Result` carries either the value a call returns or the exception it
    raises, so that error paths are part of each operation's contract. */
module Wrappers {

  /** Python's `None`-or-value. */
  datatype Option<+T> = None | Some(value: T)

  /** The Python exceptions the modelled code can raise, by class. */
  datatype Exception =
    | ValueError(message: string)
    | KeyError(key: string)
    | IndexError(message: string)
    | AttributeError(message: string)
    | AssertionError(message: string)
    | OverflowError(message: string)
    | RuntimeError(message: string)

  /** The outcome of a call that either returns a value or raises. */
  datatype Result<+T> = Ok(value: T) | Err(error: Exception) {

    predicate IsFailure() {
      Err?
    }

    function PropagateFailure<U>(): Result<U>
      requires Err?
    {
      Err(error)
    }

    function Extract(): T
      requires Ok?
    {
      value
    }
  }
}
